=== FILE: README.md ===
# Antero player core in Dafny

A model of the three small state machines at the heart of the Antero
player, an Android app that holds pushed messages until the Bluetooth LE
tag they are addressed to is physically nearby:

- **Dispatch** (`PlayActivity`): a FIFO of up to 64 `(recipient, payload)`
  messages and a state `Idle | Suspended | Running`. An idle activity asks
  for a proximity scan and waits (`Suspended`). A tag-found broadcast drains
  the queue and hands the messages addressed to that tag to a player. The
  player reveals `payload + ": " + count` one character per 200 ms tick. A
  scan-ended broadcast arms a 3000 ms timeout that gives up the wait.
- **Proximity** (`ProximityService`): a 10000 ms scan window, one builder
  per connected device, and a read sequence. The attributes of the tag
  service are pushed onto a stack, and each successful read completion pops
  and reads the next one. The completion that finds the stack empty
  assembles `Tag(id, name, true)` when both values are present and
  non-empty.
- **Tag registry** (`Tag`, `FileStorageService`): tags are equal and hash
  alike by identifier only. Records are written as `id,name,interactive`
  with Java `String.split(",")` semantics on loading. The in-memory map
  refuses duplicate identifiers.

Each handler is one pure transition function: state in, state and
effects out. The activity's receivers and every posted runnable run to
completion on the main looper. The GATT callbacks run on a binder thread,
and the model treats them as if they were serialised with the looper (see
"## Left out").
Posted runnables become counters of pending tasks. An event for a task can
only be delivered while one is pending. Calls into the Bluetooth stack, the
scan service and the display are output effects. Callbacks from the radio
and GATT are input events, and characteristic values are `seq<byte>`.

Modules: `JavaLang` and `JavaText` hold the Java library behaviour the code
relies on: null strings, `String.hashCode`, `Boolean.parseBoolean`,
`Integer.toString`, `split(",")` and `BufferedReader.readLine`.
`TagModel`, `FileStorage`, `Proximity` and `Dispatch` follow the four
source files.

Sharp edges of the code that the model keeps:

- Messages that do not match the found tag are discarded, not requeued
  (`Dispatch.UnmatchedAreDiscarded`, `Dispatch.UnmatchedMessageIsLost`).
- A tag that matches nothing leaves the activity `Running` rather than
  waiting. Only `onResume` or a finishing player make it idle again
  (`Dispatch.NoMatchGetsStuck`).
- A full queue makes `put` block. Nothing rejects the message, so the
  model makes room in the queue a precondition.
- Every scan result triggers a new connection, and a connection replaces
  any builder for that device. Duplicate advertisements are not ignored.
- Stopping a scan does not cancel its expiry. A stop and a restart
  therefore leave two expiries posted
  (`Proximity.StopRestartDoublesExpiries`). Scan-ended broadcasts still
  match posted expiries one for one (`Proximity.RunAccounting`).
- `saveTag` writes no line terminator. A first saved tag whose identifier
  and name are non-null and free of commas and line breaks survives a
  restart (`FileStorage.ReloadAfterOneSave`); a null identifier comes back
  as the string "null" (`FileStorage.NullIdReadsBackAsString`). After two
  or more saves the reloaded registry is empty
  (`FileStorage.ReloadAfterSeveralSavesLosesAll`).

## Model

| member | source | states |
|---|---|---|
| `Dispatch.LaunchMessagePlayer` | antero-player/src/antero/player/messaging/PlayActivity.java:105-133 | an intent without extras, or with a null or empty recipient or payload, changes nothing; an accepted one is appended at the tail of the queue, which stays within 64; with the scan service bound an idle activity issues exactly one scan request and becomes suspended, while a suspended or running one only grows its queue and emits nothing; unbound, the only other change is one posted 1000 ms retry, the sole effect |
| `Dispatch.PlayMessagePendingTagScan` | antero-player/src/antero/player/messaging/PlayActivity.java:135-140 | only from idle: one scan request and the state becomes suspended; from any other state nothing changes |
| `Dispatch.OnRetry` | antero-player/src/antero/player/messaging/PlayActivity.java:120-125 | the posted retry consumes itself; an idle activity then issues one scan request and becomes suspended, any other changes nothing else and emits nothing |
| `Dispatch.OnResume` | antero-player/src/antero/player/messaging/PlayActivity.java:77-83 | resuming forces the state to idle and re-handles the launching intent: without an acceptable intent only the state changes; an acceptable one is appended to the queue again on every resume, and then either one scan request is issued and the state is suspended (bound) or a retry is posted and the state stays idle (unbound) |
| `Dispatch.BurstRequestsOneScan` | antero-player/src/antero/player/messaging/PlayActivity.java:114-139 | any non-empty burst of accepted messages, each arriving with the scan service bound or not, followed by the retries the unbound ones posted: from idle, exactly one scan request in all and the activity ends suspended; from suspended or running, none and the state is kept; the queue holds the burst and no retry is left over |
| `Dispatch.BurstScans` | antero-player/src/antero/player/messaging/PlayActivity.java:114-139 | during the burst itself an idle activity requests one scan if some message found the service bound, and otherwise stays idle with no request |
| `Dispatch.RetriesRequestAtMostOneScan` | antero-player/src/antero/player/messaging/PlayActivity.java:118-125 | retries firing in a row request one scan when the activity was idle and none otherwise |
| `Dispatch.Burst` | antero-player/src/antero/player/messaging/PlayActivity.java:114-126 | a burst of enqueues appends its messages to the queue in arrival order, posts one retry per unbound arrival, and leaves the player and the timeouts alone |
| `Dispatch.Retries` | antero-player/src/antero/player/messaging/PlayActivity.java:120-125 | firing n retries consumes exactly n and never touches the queue |
| `Dispatch.Matching` | antero-player/src/antero/player/messaging/PlayActivity.java:158-162 | the played list holds only messages whose recipient equals the tag id, all of them, drawn from the queue |
| `Dispatch.Unmatched` | antero-player/src/antero/player/messaging/PlayActivity.java:158-161 | the not-played list holds exactly the queue's messages not addressed to the tag |
| `Dispatch.MatchingPartitions` | antero-player/src/antero/player/messaging/PlayActivity.java:155-162 | the played and not-played lists split the drained queue exactly, as multisets |
| `Dispatch.MatchingAppend` | antero-player/src/antero/player/messaging/PlayActivity.java:158-162 | the played list keeps queue order: filtering distributes over concatenation |
| `Dispatch.OnTagFound` | antero-player/src/antero/player/messaging/PlayActivity.java:142-168 | nothing changes unless the state is suspended and the tag is non-null; otherwise the queue is emptied and the state is running; a new player over exactly the matching messages, with its text and index as a fresh player has them, is posted when there are any; with none the player and tick are left as they were |
| `Dispatch.UnmatchedAreDiscarded` | antero-player/src/antero/player/messaging/PlayActivity.java:151-167 | after an accepted tag-found the unmatched messages are neither queued nor handed to the player, and every played message is addressed to the tag |
| `Dispatch.UnmatchedMessageIsLost` | antero-player/src/antero/player/messaging/PlayActivity.java:151-167 | concretely: a waiting message for "T2" is gone after tag "T1" is found, with no player started and the state running |
| `Dispatch.Step` | antero-player/src/antero/player/messaging/PlayActivity.java:77-185 | the receivers' dispatch: only a message intent or a resume grows the queue, never beyond 64; a delivered event requests at most one scan, only from an idle activity or on resume, and the activity is then suspended |
| `Dispatch.RunningIsStuck` | antero-player/src/antero/player/messaging/PlayActivity.java:77-229 | running with no tick posted, every run of events other than onResume leaves the activity running with no tick posted |
| `Dispatch.NoMatchGetsStuck` | antero-player/src/antero/player/messaging/PlayActivity.java:151-167 | a tag-found with zero matches while no player tick is pending leaves the state running for any later run of events without onResume |
| `Dispatch.NewPlayer` | antero-player/src/antero/player/messaging/PlayActivity.java:195-198 | the player text is the first payload, then ": ", then the number of played messages as `Integer.toString` prints it (decimal digits, no leading zero, reading back as the count); the index starts at 0 |
| `Dispatch.OnScanEnded` | antero-player/src/antero/player/messaging/PlayActivity.java:170-184 | scan-ended while suspended posts one 3000 ms timeout and changes nothing else; in any other state it is a no-op |
| `Dispatch.OnTimeout` | antero-player/src/antero/player/messaging/PlayActivity.java:173-182 | the timeout consumes itself and makes the activity idle only if it is still suspended; nothing else changes (queue, player, tick, retries) and nothing is emitted |
| `Dispatch.ScanEndedThenTimeout` | antero-player/src/antero/player/messaging/PlayActivity.java:170-183 | a suspended activity whose scan ends and whose timeout fires is idle with its queue unchanged |
| `Dispatch.OnTick` | antero-player/src/antero/player/messaging/PlayActivity.java:209-229 | while index < length, a tick shows text[..index+1], which is a non-empty prefix of the text, beeps, increments the index and posts the next tick 200 ms later; otherwise it resets the index, sets idle and posts nothing; either way the queue, the pending timeouts and the pending retries are untouched |
| `Dispatch.TicksReveal` | antero-player/src/antero/player/messaging/PlayActivity.java:211-224 | n consecutive ticks from index i show the prefixes of length i+1 .. i+n in order and leave the index at i+n |
| `Dispatch.PlayerRunsToIdle` | antero-player/src/antero/player/messaging/PlayActivity.java:195-228 | a fresh player shows every prefix of its text, then one more tick sets idle, stops ticking and resets the index |
| `Proximity.Scan` | antero-player/src/antero/player/tag/ProximityService.java:87-121 | scan(true) while scanning is a no-op; scan(true) otherwise empties the builder map, sets scanning and posts exactly one expiry; scan(false) while scanning clears the flag, emits only the stop of the radio, and keeps the pending expiries and the builders; scan(false) when not scanning is a no-op |
| `Proximity.StartIsIdempotent` | antero-player/src/antero/player/tag/ProximityService.java:88-89 | a second scan(true) right after a first changes nothing and posts nothing |
| `Proximity.StopRestartDoublesExpiries` | antero-player/src/antero/player/tag/ProximityService.java:87-121 | start, stop and restart before expiry leaves scanning on with two expiries pending |
| `Proximity.OnExpiry` | antero-player/src/antero/player/tag/ProximityService.java:91-107 | the expiry clears scanning, consumes itself without posting another, stops the radio, broadcasts exactly one scan-ended, disconnects every device in the builder map and leaves the map in place |
| `Proximity.Step` | antero-player/src/antero/player/tag/ProximityService.java:87-186 | only a successful read completion for a device without a builder crashes, and every such one does; only scan requests and expiries touch the scan window; a scan-ended broadcast comes only from a posted expiry and a tag-found only from a successful read completion |
| `Proximity.StepAccounting` | antero-player/src/antero/player/tag/ProximityService.java:87-121 | for any single event, pending expiries before plus expiries posted equals pending after plus scan-ended broadcasts |
| `Proximity.RunAccounting` | antero-player/src/antero/player/tag/ProximityService.java:87-121 | over any run of events, every expiry ever posted has broadcast exactly one scan-ended or is still pending |
| `Proximity.OnDeviceFound` | antero-player/src/antero/player/tag/ProximityService.java:126-130 | every scan result leads to a connection attempt and no state change |
| `Proximity.OnConnectionStateChange` | antero-player/src/antero/player/tag/ProximityService.java:134-146 | a connection installs a fresh builder with an empty stack under the device's address, replacing any earlier one, and requests service discovery; other states leave the scanner unchanged |
| `Proximity.PushAllReverses` | antero-player/src/antero/player/tag/ProximityService.java:219-228 | pushing the declared attributes one by one leaves them in reverse declaration order on top of the existing stack |
| `Proximity.ReadNext` | antero-player/src/antero/player/tag/ProximityService.java:234-241 | on an empty stack nothing happens; otherwise the top attribute is popped and exactly one read of it is issued |
| `Proximity.OnServicesDiscovered` | antero-player/src/antero/player/tag/ProximityService.java:148-160 | a failed discovery, or one for a device without a builder, changes nothing; otherwise the reversed declared attributes go on the stack and the top one is read |
| `Proximity.MissingServiceReadsNothing` | antero-player/src/antero/player/tag/ProximityService.java:219-241 | a device without the tag service gets an empty stack and no read is issued |
| `Proximity.ReadCharacteristicValue` | antero-player/src/antero/player/tag/ProximityService.java:188-202 | a value is returned exactly when the service, the attribute and a non-empty byte value are all present, and it is those bytes decoded |
| `Proximity.AssembleTag` | antero-player/src/antero/player/tag/ProximityService.java:172-183 | a tag is produced if and only if both the identifier and the name bytes are present and non-empty; it is then Tag(id, name, true) |
| `Proximity.OnCharacteristicRead` | antero-player/src/antero/player/tag/ProximityService.java:162-186 | a failed read changes nothing, so the sequence stops; a successful one for a device without a builder crashes; with attributes left it pops and reads exactly one; with none it broadcasts the assembled tag if there is one, otherwise nothing |
| `Proximity.CompletionsPop` | antero-player/src/antero/player/tag/ProximityService.java:165-170 | n successful completions on a stack of at least n issue reads of its top n attributes in stack order and leave the rest |
| `Proximity.ReadSequence` | antero-player/src/antero/player/tag/ProximityService.java:148-186 | for k >= 1 declared attributes, discovery reads the last declared, the next k-1 completions read the rest in reverse order, and the k-th completion assembles and broadcasts the tag if both values are there |
| `Proximity.Decode` | antero-player/src/antero/player/tag/ProximityService.java:194 | decoding a non-empty value gives a string of the same, non-zero length |
| `FileStorage.ParseLine` | antero-player/src/antero/player/tag/FileStorageService.java:42-49 | a line is accepted exactly when Java's split gives three fields (so never without a comma); the tag's identifier is then the first field, its name the second (both non-null and comma-free), and its flag `parseBoolean` of the third |
| `FileStorage.LineAcceptedByCommas` | antero-player/src/antero/player/tag/FileStorageService.java:42-49 | a line not ending in a comma is accepted exactly when it contains two commas; one ending in a comma exactly when three fields remain after its trailing empty ones are dropped |
| `FileStorage.Load` | antero-player/src/antero/player/tag/FileStorageService.java:42-51 | the loaded map stores every tag under its own, non-null identifier |
| `FileStorage.AcceptedLineIsItsFields` | antero-player/src/antero/player/tag/FileStorageService.java:43-48 | an accepted line not ending in a comma is exactly its tag's identifier, a comma, its name, a comma and the flag field |
| `FileStorage.LoadLastLineWins` | antero-player/src/antero/player/tag/FileStorageService.java:42-51 | an accepted line whose identifier no later accepted line repeats is what the map holds for that identifier: later lines overwrite earlier ones |
| `FileStorage.LoadedTagsComeFromLines` | antero-player/src/antero/player/tag/FileStorageService.java:42-51 | every loaded tag is the parse of some line of the file |
| `FileStorage.OnCreate` | antero-player/src/antero/player/tag/FileStorageService.java:33-60 | a missing file gives an empty map; any file gives a map keyed by identifier |
| `FileStorage.GetTag` | antero-player/src/antero/player/tag/FileStorageService.java:67-70 | the stored tag exactly when the identifier is a key, otherwise null |
| `FileStorage.GetTagList` | antero-player/src/antero/player/tag/FileStorageService.java:72-75 | the list has one element per key, each the value stored under a distinct key, covering every key |
| `FileStorage.Record` | antero-player/src/antero/player/tag/FileStorageService.java:98-99 | the record holds no line break when the identifier and name hold none, and ends in the flag's final letter, never a terminator |
| `FileStorage.SaveTag` | antero-player/src/antero/player/tag/FileStorageService.java:87-112 | an existing identifier fails with "tag exists" and leaves the storage unchanged; a new one adds exactly that entry, keeps all others, appends its record to the file (creating it if absent) with no terminator, returns the same tag, and keeps every tag under its own identifier |
| `FileStorage.CreateTag` | antero-player/src/antero/player/tag/FileStorageService.java:77-80 | is saveTag of Tag(id, name, interactive): fails exactly on a stored identifier and then changes nothing; otherwise adds exactly that entry and keeps all others |
| `FileStorage.PersistTag` | antero-player/src/antero/player/tag/FileStorageService.java:82-85 | is saveTag of the given tag: fails exactly on a stored identifier and then changes nothing; otherwise adds exactly that entry and keeps all others |
| `FileStorage.RecordRoundTrip` | antero-player/src/antero/player/tag/FileStorageService.java:42-99 | for a non-null identifier and name free of commas and line breaks, the record reads back as one line that parses to the same tag, and loading it gives exactly that tag |
| `FileStorage.NullIdReadsBackAsString` | antero-player/src/antero/player/tag/FileStorageService.java:98 | a null identifier is written as "null" and loads back as the string "null" |
| `FileStorage.RecordsShape` | antero-player/src/antero/player/tag/FileStorageService.java:94-99 | appended records contain no line break and two commas per record |
| `FileStorage.ConcatenatedRecordsLoadNothing` | antero-player/src/antero/player/tag/FileStorageService.java:42-99 | two or more appended records form one line of 2n+1 fields, which the loader skips, so the loaded map is empty |
| `FileStorage.SaveAllFromFresh` | antero-player/src/antero/player/tag/FileStorageService.java:87-100 | saving tags of distinct identifiers into a fresh registry stores each of them under its identifier |
| `FileStorage.SaveAllFileFromFresh` | antero-player/src/antero/player/tag/FileStorageService.java:94-99 | those saves leave the records back to back in the file |
| `FileStorage.ReloadAfterOneSave` | antero-player/src/antero/player/tag/FileStorageService.java:33-100 | after one save into a fresh registry of a tag whose identifier and name are non-null and free of commas and line breaks, a restart reloads exactly the in-memory map |
| `FileStorage.ReloadAfterSeveralSavesLosesAll` | antero-player/src/antero/player/tag/FileStorageService.java:33-100 | after two or more saves the in-memory map holds them all, but a restart reloads nothing |
| `TagModel.NewTag` | antero-player/src/antero/player/tag/Tag.java:13-17 | the default tag has null identifier, null name and interactive false |
| `TagModel.MakeTag` | antero-player/src/antero/player/tag/Tag.java:19-23 | the constructor keeps exactly its three arguments |
| `TagModel.SetId` | antero-player/src/antero/player/tag/Tag.java:25-27 | changes the identifier and nothing else |
| `TagModel.SetName` | antero-player/src/antero/player/tag/Tag.java:29-31 | changes the name and nothing else |
| `TagModel.SetInteractive` | antero-player/src/antero/player/tag/Tag.java:33-35 | changes the flag and nothing else |
| `TagModel.ToString` | antero-player/src/antero/player/tag/Tag.java:50-52 | the name (or "null"), then " (", the identifier (or "null") and ")", with exactly those lengths |
| `TagModel.Equals` | antero-player/src/antero/player/tag/Tag.java:55-64 | a tag equals itself, and nothing but a tag (never null, never another class) equals a tag |
| `TagModel.EqualsCharacterization` | antero-player/src/antero/player/tag/Tag.java:55-64 | equals holds if and only if the other object is a non-null Tag with the same identifier, two null identifiers counting as equal |
| `TagModel.EqualsIsEquivalence` | antero-player/src/antero/player/tag/Tag.java:55-64 | equals is reflexive, symmetric and transitive on tags |
| `TagModel.HashCode` | antero-player/src/antero/player/tag/Tag.java:67-69 | the hash is a 32-bit int, and 0 for a null identifier |
| `TagModel.EqualTagsHashEqually` | antero-player/src/antero/player/tag/Tag.java:55-69 | equal tags have equal hash codes |
| `TagModel.SettersKeepEquality` | antero-player/src/antero/player/tag/Tag.java:29-64 | renaming a tag or changing its flag never changes equality with any object, on either side |
| `JavaLang.StringHashCode` | antero-player/src/antero/player/tag/Tag.java:68 | the identifier's hash is a 32-bit int, 0 for the empty string |
| `JavaLang.StringHashCodeIsPolynomial` | antero-player/src/antero/player/tag/Tag.java:68 | the iterative hash agrees modulo 2^32 with the polynomial s[0]*31^(n-1) + ... + s[n-1] |
| `JavaLang.ParseBoolean` | antero-player/src/antero/player/tag/FileStorageService.java:48 | true exactly for a four-character string reading "true" in any mix of ASCII case |
| `JavaLang.NatToString` | antero-player/src/antero/player/messaging/PlayActivity.java:197 | the count prints as at least one decimal digit, with no leading zero |
| `JavaLang.ParseBooleanOfBoolToString` | antero-player/src/antero/player/tag/FileStorageService.java:48 | parsing the printed flag gives the flag back |
| `JavaLang.DecimalValueOfNatToString` | antero-player/src/antero/player/messaging/PlayActivity.java:197 | the printed message count reads back as the count |
| `JavaText.Split` | antero-player/src/antero/player/tag/FileStorageService.java:43 | a line without a comma is one field, "" included; otherwise the comma-separated fields, trimmed to end in a non-empty field, with only empty fields removed |
| `JavaText.SplitCount` | antero-player/src/antero/player/tag/FileStorageService.java:43-44 | a line not ending in a comma splits into one more field than it has commas |
| `JavaText.SplitThree` | antero-player/src/antero/player/tag/FileStorageService.java:43-48 | comma-free a, b and non-empty c joined by commas split back into exactly [a, b, c] |
| `JavaText.FieldsJoin` | antero-player/src/antero/player/tag/FileStorageService.java:43 | splitting a comma-join of comma-free fields gives the fields back |
| `JavaText.JoinFields` | antero-player/src/antero/player/tag/FileStorageService.java:43 | joining the fields of a line gives the line back |
| `JavaText.ReadLines` | antero-player/src/antero/player/tag/FileStorageService.java:42 | no line read contains a line break, and a non-empty file has at least one line |
| `JavaText.ReadLinesTerminated` | antero-player/src/antero/player/tag/FileStorageService.java:42 | lines each written with a "\n" terminator read back as the same lines |

## Left out

- Android lifecycle and binding: receivers, intent filters, service binding and the `proximityBound` and `storageBound` flags. The binding state is an input of `Dispatch.LaunchMessagePlayer`, and the posted retry assumes the service is bound by the time it runs.
- The activity's `state` field is null until the first `onResume`. The model starts at `onResume` (`Dispatch.Resumed`), so messages that arrive before it are not modelled.
- `Dispatch.OnTick`: Java's `text.length()` and `substring` count UTF-16 code units, but the model counts characters. A payload with a character above U+FFFF takes one tick fewer per such character here, and the model never shows half a surrogate pair. `Dispatch.NewPlayer` has the same limit.
- `Dispatch.BurstRequestsOneScan`: a burst is the messages and then their retries, with no other event in between. A tag-found or timeout that lands between a message and its retry is covered only by the single-step handlers.
- Stale player runnables are not modelled. When a new player replaces one that is still ticking, the old runnable keeps posting the current player. The model has one player and one pending tick.
- `Dispatch.OnTagFound`: the commented-out registry check on the tag is not part of the code and is not modelled.
- `Proximity.Step`, `Proximity.OnConnectionStateChange`: the GATT callbacks (`onConnectionStateChange`, `onServicesDiscovered`, `onCharacteristicRead`) run on a binder thread, but the model applies each one atomically between main-looper tasks. Two races are therefore not modelled: a builder added while the expiry runnable iterates `deviceBuilders`, which can throw `ConcurrentModificationException`, and a builder put into a map that a concurrent `scan(true)` then discards.
- `Proximity.OnServicesDiscovered`, `Proximity.OnCharacteristicRead`: each builder keeps its own `BluetoothGatt`, and `queueCharacteristics` and `readNextCharacteristic` read that connection's services, while assembly reads the callback's. The model uses the callback's services throughout, so after a second `connectGatt` to the same device it does not tell the two connections apart.
- Bluetooth stack: `connectGatt`, `discoverServices`, `readCharacteristic`, `disconnect`, `close`, `startLeScan` and `stopLeScan` are output effects with no modelled behaviour. `initialize` (adapter lookup, feature check) is left out as platform configuration.
- `deviceBuilders` is null before the first scan. The model starts with an empty map, because no connection can happen before a scan.
- `Proximity.Decode`: `new String(bytes)` uses the platform charset. The model maps each byte to the character with the same code, which is exact only for ISO-8859-1.
- `JavaLang.StringHashCode`: Java hashes UTF-16 code units. A character above U+FFFF is hashed here as one value rather than as two surrogates.
- `JavaLang.ParseBoolean`: folds ASCII case only. For the letters of "true" this agrees with Java's `equalsIgnoreCase`.
- File I/O failures: `IOException` while loading, write failures, and the null-writer `NullPointerException` in `saveTag`'s `finally` block. The file is a string that only ever grows by appended records.
- `FileStorage.GetTagList`: `HashMap` iteration order is unspecified. The method returns its key order alongside the list instead of fixing one.
- `GcmIntentService`, `TagListActivity` and `StorageService`: message transport, UI and an interface with no logic.
- MediaPlayer beeps and the TextView: reduced to `Beep` and `ShowText` effects. Handler delays (1000, 3000, 10000, 200 ms) are carried on the posted-task effects; time itself is not modelled.

=== FILE: dispatch.dfy ===
/** The playing activity: a bounded FIFO of incoming (recipient, payload)
    messages, a three-state machine that asks for a proximity scan and waits
    for a tag, and a player that reveals the text of the matched messages one
    character per tick. Every handler runs to completion on the main looper,
    so each is one atomic transition; delayed tasks are counted while posted. */
module Dispatch {
  import opened JavaLang
  import opened TagModel
  import opened Sequences

  /** Capacity of the incoming-message queue. */
  const QueueCapacity: nat := 64
  /** Delay before a scan request is retried while the scan service is unbound. */
  const DelayedScanMs: nat := 1000
  /** Delay between the end of a scan and the give-up timeout. */
  const DelayedTimeoutMs: nat := 3000
  /** Delay between two player ticks. */
  const TickDelayMs: nat := 200

  datatype State = Idle | Running | Suspended

  datatype Message = Message(recipient: string, payload: string)

  /** The extras of a message intent; either string may be missing. */
  datatype Extras = Extras(recipient: JString, payload: JString)

  /** The message player: the matched messages, the text it reveals, and how
      many characters of it are shown. */
  datatype Player = Player(messages: seq<Message>, text: string, index: nat)

  /** The activity's state: the queue (head first), the state machine, the
      current player, and the tasks posted to the looper but not yet run. */
  datatype Activity = Activity(
    queue: seq<Message>,
    state: State,
    player: Option<Player>,
    tickPending: bool,
    pendingTimeouts: nat,
    pendingRetries: nat)

  /** A fresh activity: nothing queued, nothing posted, and the state idle,
      as `onResume` forces it before the launching intent is handled again. */
  const Resumed: Activity := Activity([], Idle, None, false, 0, 0)

  datatype Task = RetryScan | ScanTimeout | PlayerTick

  /** What the activity asks of its collaborators. */
  datatype Effect =
    | RequestScan
    | Post(task: Task, delayMs: nat)
    | ShowText(text: string)
    | Beep

  datatype Reaction = Reaction(activity: Activity, effects: seq<Effect>)

  /** A message intent worth queueing: extras present, recipient and payload
      neither null nor empty. */
  predicate Accepts(extras: Option<Extras>) {
    extras.Some? && !IsEmpty(extras.value.recipient) && !IsEmpty(extras.value.payload)
  }

  function MessageOf(extras: Option<Extras>): Message
    requires Accepts(extras)
  {
    Message(extras.value.recipient.value, extras.value.payload.value)
  }

  /** The scan requests among some effects. */
  function CountScanRequests(effects: seq<Effect>): nat {
    multiset(effects)[RequestScan]
  }

  /** `playMessagePendingTagScan`: only an idle activity asks for a scan,
      and it then waits for a tag. */
  function PlayMessagePendingTagScan(a: Activity): (r: Reaction)
    ensures a.state == Idle ==> r.activity == a.(state := Suspended) && CountScanRequests(r.effects) == 1
    ensures a.state != Idle ==> r == Reaction(a, [])
  {
    if a.state == Idle then Reaction(a.(state := Suspended), [RequestScan]) else Reaction(a, [])
  }

  /** `launchMessagePlayer`: an unacceptable intent changes nothing; an
      acceptable one is appended to the queue (`put` would block on a full
      queue, so the queue must have room), and then either the scan is
      requested at once or, while the scan service is still unbound, a retry
      is posted. */
  function LaunchMessagePlayer(a: Activity, extras: Option<Extras>, bound: bool): (r: Reaction)
    requires Accepts(extras) ==> |a.queue| < QueueCapacity
    ensures !Accepts(extras) ==> r == Reaction(a, [])
    ensures Accepts(extras) ==> r.activity.queue == a.queue + [MessageOf(extras)]
    ensures Accepts(extras) && bound ==>
      && r.activity == a.(queue := a.queue + [MessageOf(extras)],
                          state := if a.state == Idle then Suspended else a.state)
      && r.effects == (if a.state == Idle then [RequestScan] else [])
    ensures Accepts(extras) && !bound ==>
      && r.activity == a.(queue := a.queue + [MessageOf(extras)], pendingRetries := a.pendingRetries + 1)
      && r.effects == [Post(RetryScan, DelayedScanMs)]
    ensures |a.queue| <= QueueCapacity ==> |r.activity.queue| <= QueueCapacity
  {
    if !Accepts(extras) then Reaction(a, [])
    else
      var a1 := a.(queue := a.queue + [MessageOf(extras)]);
      if bound then PlayMessagePendingTagScan(a1)
      else Reaction(a1.(pendingRetries := a1.pendingRetries + 1), [Post(RetryScan, DelayedScanMs)])
  }

  /** The posted retry: the scan service is bound by now. */
  function OnRetry(a: Activity): (r: Reaction)
    requires a.pendingRetries > 0
    ensures r.activity == a.(pendingRetries := a.pendingRetries - 1,
                             state := if a.state == Idle then Suspended else a.state)
    ensures r.effects == (if a.state == Idle then [RequestScan] else [])
  {
    PlayMessagePendingTagScan(a.(pendingRetries := a.pendingRetries - 1))
  }

  /** `onResume`: back to idle, then the launching intent is handled again. */
  function OnResume(a: Activity, extras: Option<Extras>, bound: bool): (r: Reaction)
    requires Accepts(extras) ==> |a.queue| < QueueCapacity
    ensures !Accepts(extras) ==> r.activity == a.(state := Idle) && r.effects == []
    ensures Accepts(extras) ==> r.activity.queue == a.queue + [MessageOf(extras)]
    ensures Accepts(extras) && bound ==>
      && r.activity == a.(queue := a.queue + [MessageOf(extras)], state := Suspended)
      && r.effects == [RequestScan]
    ensures Accepts(extras) && !bound ==>
      && r.activity == a.(queue := a.queue + [MessageOf(extras)], state := Idle,
                          pendingRetries := a.pendingRetries + 1)
      && r.effects == [Post(RetryScan, DelayedScanMs)]
  {
    LaunchMessagePlayer(a.(state := Idle), extras, bound)
  }

  /** Whether a message is addressed to the tag identifier `id`. */
  predicate AddressedTo(m: Message, id: JString) {
    id == Some(m.recipient)
  }

  /** The messages of `q` addressed to `id`, in queue order. */
  function Matching(q: seq<Message>, id: JString): (r: seq<Message>)
    ensures |r| <= |q|
    ensures forall m :: m in r <==> m in q && AddressedTo(m, id)
  {
    if |q| == 0 then []
    else (if AddressedTo(q[0], id) then [q[0]] else []) + Matching(q[1..], id)
  }

  /** The messages of `q` not addressed to `id`, in queue order. */
  function Unmatched(q: seq<Message>, id: JString): (r: seq<Message>)
    ensures |r| <= |q|
    ensures forall m :: m in r <==> m in q && !AddressedTo(m, id)
  {
    if |q| == 0 then []
    else (if AddressedTo(q[0], id) then [] else [q[0]]) + Unmatched(q[1..], id)
  }

  /** Matching and unmatched messages share the queue out between them. */
  lemma {:induction false} MatchingPartitions(q: seq<Message>, id: JString)
    ensures multiset(Matching(q, id)) + multiset(Unmatched(q, id)) == multiset(q)
    decreases |q|
  {
    if |q| > 0 {
      MatchingPartitions(q[1..], id);
      var head, tail := SplitFirst(q, id);
      SplitHead(q[0], q[1..], Matching(q[1..], id), Unmatched(q[1..], id), head, tail);
    }
  }

  /** The first message of `q` goes to exactly one of the two sides. */
  lemma SplitFirst(q: seq<Message>, id: JString) returns (head: seq<Message>, tail: seq<Message>)
    requires |q| > 0
    ensures (head == [q[0]] && tail == []) || (head == [] && tail == [q[0]])
    ensures Matching(q, id) == head + Matching(q[1..], id)
    ensures Unmatched(q, id) == tail + Unmatched(q[1..], id)
    ensures q == [q[0]] + q[1..]
  {
    head := if AddressedTo(q[0], id) then [q[0]] else [];
    tail := if AddressedTo(q[0], id) then [] else [q[0]];
  }

  /** Matching keeps queue order: it distributes over concatenation. */
  lemma {:induction false} MatchingAppend(p: seq<Message>, q: seq<Message>, id: JString)
    ensures Matching(p + q, id) == Matching(p, id) + Matching(q, id)
    decreases |p|
  {
    if |p| == 0 {
      assert p + q == q;
    } else {
      assert (p + q)[1..] == p[1..] + q;
      MatchingAppend(p[1..], q, id);
    }
  }

  /** A fresh player for the matched messages: the first payload, ": " and
      the number of messages, nothing shown yet. */
  function NewPlayer(messages: seq<Message>): (p: Player)
    requires |messages| > 0
    ensures p.messages == messages && p.index == 0
    ensures |p.text| > |messages[0].payload| + 2
    ensures p.text[..|messages[0].payload| + 2] == messages[0].payload + ": "
    ensures forall i :: |messages[0].payload| + 2 <= i < |p.text| ==> '0' <= p.text[i] <= '9'
    ensures p.text[|messages[0].payload| + 2..] == NatToString(|messages|)
    ensures DecimalValue(p.text[|messages[0].payload| + 2..]) == |messages|
  {
    var payload := messages[0].payload;
    var count := NatToString(|messages|);
    var text := payload + ": " + count;
    assert text[|payload| + 2..] == count;
    DecimalValueOfNatToString(|messages|);
    Player(messages, text, 0)
  }

  /** The tag-found broadcast. Unless the activity is waiting for a tag and
      the tag is present nothing happens. Otherwise the queue is drained,
      the state becomes running, the messages addressed to the tag are
      handed to a new player (posted at once) and all others are discarded;
      when none match, no player is started and the state stays running. */
  function OnTagFound(a: Activity, tag: Option<Tag>): (r: Reaction)
    ensures !(a.state == Suspended && tag.Some?) ==> r == Reaction(a, [])
    ensures a.state == Suspended && tag.Some? ==>
      && r.activity.queue == [] && r.activity.state == Running
      && r.activity.pendingTimeouts == a.pendingTimeouts && r.activity.pendingRetries == a.pendingRetries
    ensures a.state == Suspended && tag.Some? && |Matching(a.queue, tag.value.id)| > 0 ==>
      && r.activity.player == Some(NewPlayer(Matching(a.queue, tag.value.id)))
      && r.activity.tickPending
      && r.effects == [Post(PlayerTick, 0)]
    ensures a.state == Suspended && tag.Some? && |Matching(a.queue, tag.value.id)| == 0 ==>
      && r.activity.player == a.player && r.activity.tickPending == a.tickPending && r.effects == []
  {
    if a.state == Suspended && tag.Some? then
      var played := Matching(a.queue, tag.value.id);
      var drained := a.(state := Running, queue := []);
      if |played| > 0 then
        Reaction(drained.(player := Some(NewPlayer(played)), tickPending := true), [Post(PlayerTick, 0)])
      else Reaction(drained, [])
    else Reaction(a, [])
  }

  /** The scan-ended broadcast: only while waiting for a tag is the give-up
      timeout posted. */
  function OnScanEnded(a: Activity): (r: Reaction)
    ensures a.state == Suspended ==>
      r.activity == a.(pendingTimeouts := a.pendingTimeouts + 1) && r.effects == [Post(ScanTimeout, DelayedTimeoutMs)]
    ensures a.state != Suspended ==> r == Reaction(a, [])
  {
    if a.state == Suspended then
      Reaction(a.(pendingTimeouts := a.pendingTimeouts + 1), [Post(ScanTimeout, DelayedTimeoutMs)])
    else Reaction(a, [])
  }

  /** The posted timeout: gives up the wait if it is still on; nothing else
      changes, so a playing player is not disturbed. */
  function OnTimeout(a: Activity): (r: Reaction)
    requires a.pendingTimeouts > 0
    ensures r == Reaction(a.(pendingTimeouts := a.pendingTimeouts - 1,
                             state := if a.state == Suspended then Idle else a.state), [])
  {
    var a1 := a.(pendingTimeouts := a.pendingTimeouts - 1);
    if a.state == Suspended then Reaction(a1.(state := Idle), []) else Reaction(a1, [])
  }

  /** One player tick. While characters remain, one more is shown (the text
      shown is always a prefix of the player's text), a beep sounds and the
      next tick is posted; afterwards the counter is reset and the activity
      goes idle, whatever it was doing. */
  function OnTick(a: Activity): (r: Reaction)
    requires a.tickPending && a.player.Some?
    ensures var p := a.player.value;
      p.index < |p.text| ==>
        && r.activity.player == Some(p.(index := p.index + 1)) && r.activity.tickPending
        && r.activity.state == a.state
        && r.effects == [ShowText(p.text[..p.index + 1]), Beep, Post(PlayerTick, TickDelayMs)]
    ensures var p := a.player.value;
      p.index >= |p.text| ==>
        && r.activity.player == Some(p.(index := 0)) && !r.activity.tickPending
        && r.activity.state == Idle && r.effects == []
    ensures forall e :: e in r.effects && e.ShowText? ==> e.text <= a.player.value.text && |e.text| > 0
    ensures r.activity.queue == a.queue
    ensures r.activity.pendingTimeouts == a.pendingTimeouts && r.activity.pendingRetries == a.pendingRetries
  {
    var p := a.player.value;
    if p.index < |p.text| then
      Reaction(a.(player := Some(p.(index := p.index + 1))),
               [ShowText(p.text[..p.index + 1]), Beep, Post(PlayerTick, TickDelayMs)])
    else
      Reaction(a.(player := Some(p.(index := 0)), state := Idle, tickPending := false), [])
  }

  /** The activity's inputs. */
  datatype Event =
    | MessageAvailable(extras: Option<Extras>, bound: bool)
    | Resume(intent: Option<Extras>, bound: bool)
    | RetryFires
    | TagFound(tag: Option<Tag>)
    | ScanEnded
    | TimeoutFires
    | TickFires

  /** Whether the event can be delivered: a posted task must be pending, and
      an accepted message needs room in the queue. */
  predicate Enabled(a: Activity, e: Event) {
    match e
    case MessageAvailable(extras, _) => Accepts(extras) ==> |a.queue| < QueueCapacity
    case Resume(extras, _) => Accepts(extras) ==> |a.queue| < QueueCapacity
    case RetryFires => a.pendingRetries > 0
    case TimeoutFires => a.pendingTimeouts > 0
    case TickFires => a.tickPending && a.player.Some?
    case _ => true
  }

  /** One delivered event. Only a message intent or a resume adds to the
      queue, and never beyond its capacity; at most one scan is requested,
      and only by an activity that was idle (a resume makes it so), which
      then waits for a tag. */
  function Step(a: Activity, e: Event): (r: Reaction)
    requires Enabled(a, e)
    ensures !e.MessageAvailable? && !e.Resume? ==> |r.activity.queue| <= |a.queue|
    ensures |a.queue| <= QueueCapacity ==> |r.activity.queue| <= QueueCapacity
    ensures CountScanRequests(r.effects) <= 1
    ensures CountScanRequests(r.effects) == 1 ==> (a.state == Idle || e.Resume?) && r.activity.state == Suspended
  {
    match e
    case MessageAvailable(extras, bound) => LaunchMessagePlayer(a, extras, bound)
    case Resume(extras, bound) => OnResume(a, extras, bound)
    case RetryFires => OnRetry(a)
    case TagFound(tag) => OnTagFound(a, tag)
    case ScanEnded => OnScanEnded(a)
    case TimeoutFires => OnTimeout(a)
    case TickFires => OnTick(a)
  }

  /** A run of events; `None` if some event could not be delivered. */
  function Run(a: Activity, es: seq<Event>): Option<Activity>
    decreases |es|
  {
    if |es| == 0 then Some(a)
    else if !Enabled(a, es[0]) then None
    else Run(Step(a, es[0]).activity, es[1..])
  }

  /** One incoming message, and whether the scan service was bound when it
      arrived. */
  datatype Arrival = Arrival(message: Message, bound: bool)

  function Messages(xs: seq<Arrival>): (r: seq<Message>)
    ensures |r| == |xs|
    ensures forall i :: 0 <= i < |xs| ==> r[i] == xs[i].message
  {
    if |xs| == 0 then [] else Messages(xs[..|xs| - 1]) + [xs[|xs| - 1].message]
  }

  /** The number of arrivals that found the scan service unbound. */
  function Unbound(xs: seq<Arrival>): (n: nat)
    ensures n <= |xs|
    ensures n == |xs| <==> forall i :: 0 <= i < |xs| ==> !xs[i].bound
  {
    if |xs| == 0 then 0 else Unbound(xs[..|xs| - 1]) + (if xs[|xs| - 1].bound then 0 else 1)
  }

  /** A well-formed message: what `launchMessagePlayer` accepts. */
  predicate Acceptable(m: Message) {
    |m.recipient| > 0 && |m.payload| > 0
  }

  /** Queueing acceptable messages one after another; each unbound arrival
      posts a retry instead of asking for a scan. */
  function Burst(a: Activity, xs: seq<Arrival>): (r: Reaction)
    requires |a.queue| + |xs| <= QueueCapacity
    requires forall i :: 0 <= i < |xs| ==> Acceptable(xs[i].message)
    ensures r.activity.queue == a.queue + Messages(xs)
    ensures r.activity.pendingRetries == a.pendingRetries + Unbound(xs)
    ensures r.activity.player == a.player && r.activity.tickPending == a.tickPending
    ensures r.activity.pendingTimeouts == a.pendingTimeouts
    decreases |xs|
  {
    if |xs| == 0 then Reaction(a, [])
    else
      var before := Burst(a, xs[..|xs| - 1]);
      var m := xs[|xs| - 1].message;
      var extras := Some(Extras(Some(m.recipient), Some(m.payload)));
      assert Acceptable(xs[|xs| - 1].message);
      assert Accepts(extras) && MessageOf(extras) == m;
      var last := LaunchMessagePlayer(before.activity, extras, xs[|xs| - 1].bound);
      assert last.activity.queue == a.queue + Messages(xs[..|xs| - 1]) + [m];
      assert a.queue + Messages(xs[..|xs| - 1]) + [m] == a.queue + Messages(xs);
      Reaction(last.activity, before.effects + last.effects)
  }

  /** `n` posted retries firing one after another, effects concatenated. */
  function Retries(a: Activity, n: nat): (r: Reaction)
    requires a.pendingRetries >= n
    ensures r.activity.queue == a.queue && r.activity.pendingRetries == a.pendingRetries - n
    decreases n
  {
    if n == 0 then Reaction(a, [])
    else
      var first := OnRetry(a);
      var rest := Retries(first.activity, n - 1);
      Reaction(rest.activity, first.effects + rest.effects)
  }

  /** Firing retries asks for a scan once if the activity is idle and none
      otherwise. */
  lemma {:induction false} RetriesRequestAtMostOneScan(a: Activity, n: nat)
    requires a.pendingRetries >= n
    ensures CountScanRequests(Retries(a, n).effects) == if a.state == Idle && n > 0 then 1 else 0
    ensures Retries(a, n).activity.state == if a.state == Idle && n > 0 then Suspended else a.state
    decreases n
  {
    if n > 0 {
      var first := OnRetry(a);
      var rest := Retries(first.activity, n - 1);
      RetriesRequestAtMostOneScan(first.activity, n - 1);
      assert multiset(first.effects + rest.effects) == multiset(first.effects) + multiset(rest.effects);
    }
  }

  /** During a burst an idle activity asks for one scan as soon as a message
      finds the service bound; a burst of unbound arrivals leaves it idle. */
  lemma {:induction false} BurstScans(a: Activity, xs: seq<Arrival>)
    requires |a.queue| + |xs| <= QueueCapacity
    requires forall i :: 0 <= i < |xs| ==> Acceptable(xs[i].message)
    ensures var asks := a.state == Idle && Unbound(xs) < |xs|;
      && CountScanRequests(Burst(a, xs).effects) == (if asks then 1 else 0)
      && Burst(a, xs).activity.state == (if asks then Suspended else a.state)
    decreases |xs|
  {
    if |xs| > 0 {
      var prefix := xs[..|xs| - 1];
      var before := Burst(a, prefix);
      var x := xs[|xs| - 1];
      var last := LaunchMessagePlayer(before.activity, Some(Extras(Some(x.message.recipient), Some(x.message.payload))), x.bound);
      BurstScans(a, prefix);
      assert multiset(before.effects + last.effects) == multiset(before.effects) + multiset(last.effects);
    }
  }

  /** However many messages arrive, bound or not, once the retries they
      posted have fired an idle activity has asked for exactly one scan and
      is waiting; a waiting or running one has asked for none and keeps its
      state. */
  lemma BurstRequestsOneScan(a: Activity, xs: seq<Arrival>)
    requires |a.queue| + |xs| <= QueueCapacity
    requires forall i :: 0 <= i < |xs| ==> Acceptable(xs[i].message)
    requires |xs| > 0
    ensures var burst := Burst(a, xs);
      var retries := Retries(burst.activity, Unbound(xs));
      && CountScanRequests(burst.effects + retries.effects) == (if a.state == Idle then 1 else 0)
      && retries.activity.state == (if a.state == Idle then Suspended else a.state)
      && retries.activity.queue == a.queue + Messages(xs)
      && retries.activity.pendingRetries == a.pendingRetries
  {
    var burst := Burst(a, xs);
    var retries := Retries(burst.activity, Unbound(xs));
    BurstScans(a, xs);
    RetriesRequestAtMostOneScan(burst.activity, Unbound(xs));
    assert multiset(burst.effects + retries.effects) == multiset(burst.effects) + multiset(retries.effects);
  }

  /** Messages not addressed to the found tag are discarded: after an
      accepted tag-found they are neither queued nor handed to the player,
      and every message handed to the player is addressed to the tag. */
  lemma UnmatchedAreDiscarded(a: Activity, tag: Tag)
    requires a.state == Suspended
    ensures var r := OnTagFound(a, Some(tag)).activity;
      && (forall m :: m in Unmatched(a.queue, tag.id) ==> m !in r.queue)
      && (|Matching(a.queue, tag.id)| > 0 ==>
            && (forall m :: m in Unmatched(a.queue, tag.id) ==> m !in r.player.value.messages)
            && (forall m :: m in r.player.value.messages ==> AddressedTo(m, tag.id)))
      && multiset(Matching(a.queue, tag.id)) + multiset(Unmatched(a.queue, tag.id)) == multiset(a.queue)
  {
    MatchingPartitions(a.queue, tag.id);
  }

  /** Once running with no player tick posted, nothing but `onResume` brings
      the activity back: every other event leaves it running. */
  lemma {:induction false} RunningIsStuck(a: Activity, es: seq<Event>)
    requires a.state == Running && !a.tickPending
    requires forall i :: 0 <= i < |es| ==> !es[i].Resume?
    requires Run(a, es).Some?
    ensures Run(a, es).value.state == Running && !Run(a, es).value.tickPending
    decreases |es|
  {
    if |es| > 0 {
      var next := Step(a, es[0]).activity;
      assert next.state == Running && !next.tickPending;
      RunningIsStuck(next, es[1..]);
    }
  }

  /** A tag that matches nothing leaves the activity running with no
      player posted, and from there no event except `onResume` ever makes
      it idle again. */
  lemma NoMatchGetsStuck(a: Activity, tag: Tag, es: seq<Event>)
    requires a.state == Suspended && !a.tickPending
    requires |Matching(a.queue, tag.id)| == 0
    requires forall i :: 0 <= i < |es| ==> !es[i].Resume?
    requires Run(OnTagFound(a, Some(tag)).activity, es).Some?
    ensures Run(OnTagFound(a, Some(tag)).activity, es).value.state == Running
  {
    RunningIsStuck(OnTagFound(a, Some(tag)).activity, es);
  }

  /** With no tag found, the scan's end followed by the timeout returns a
      waiting activity to idle with its queue intact. */
  lemma ScanEndedThenTimeout(a: Activity)
    requires a.state == Suspended
    ensures var r := OnTimeout(OnScanEnded(a).activity).activity;
      r.state == Idle && r.queue == a.queue && r.pendingTimeouts == a.pendingTimeouts
  {
  }

  /** The effects of `n` revealing ticks starting at `index`. */
  function Reveals(text: string, index: nat, n: nat): seq<Effect>
    requires index + n <= |text|
    decreases n
  {
    if n == 0 then []
    else [ShowText(text[..index + 1]), Beep, Post(PlayerTick, TickDelayMs)] + Reveals(text, index + 1, n - 1)
  }

  /** `n` ticks in a row, effects concatenated. */
  function Ticks(a: Activity, n: nat): Option<Reaction>
    decreases n
  {
    if n == 0 then Some(Reaction(a, []))
    else if !(a.tickPending && a.player.Some?) then None
    else
      var first := OnTick(a);
      match Ticks(first.activity, n - 1)
      case None => None
      case Some(rest) => Some(Reaction(rest.activity, first.effects + rest.effects))
  }

  /** From a posted player that has shown `index` characters, the next
      `n` ticks show the next `n` ever longer prefixes of its text. */
  lemma {:induction false} TicksReveal(a: Activity, n: nat)
    requires a.tickPending && a.player.Some?
    requires a.player.value.index + n <= |a.player.value.text|
    ensures var p := a.player.value;
      Ticks(a, n) == Some(Reaction(a.(player := Some(p.(index := p.index + n))), Reveals(p.text, p.index, n)))
    decreases n
  {
    var p := a.player.value;
    if n == 0 {
      assert a.(player := Some(p.(index := p.index))) == a;
    } else {
      var next := OnTick(a).activity;
      TicksReveal(next, n - 1);
      assert next.(player := Some(p.(index := p.index + 1 + (n - 1)))) == a.(player := Some(p.(index := p.index + n)));
    }
  }

  /** A new player shows its whole text character by character, and the
      tick after the last character makes the activity idle and stops. */
  lemma PlayerRunsToIdle(a: Activity)
    requires a.tickPending && a.player.Some? && a.player.value.index == 0
    ensures var p := a.player.value;
      && Ticks(a, |p.text|) == Some(Reaction(a.(player := Some(p.(index := |p.text|))), Reveals(p.text, 0, |p.text|)))
      && Ticks(a, |p.text|).value.effects == Reveals(p.text, 0, |p.text|)
      && var done := OnTick(Ticks(a, |p.text|).value.activity);
      && done.activity.state == Idle && !done.activity.tickPending
      && done.activity.player == Some(p) && done.effects == []
  {
    var p := a.player.value;
    TicksReveal(a, |p.text|);
    var b := a.(player := Some(p.(index := |p.text|)));
    assert b.player.value.(index := 0) == p;
  }

  /** A message for a tag that is never found is lost once some other tag
      turns up: the tag "T1" is found while only a message for "T2" waits. */
  lemma UnmatchedMessageIsLost()
    ensures var m := Message("T2", "hello");
      var waiting := Resumed.(queue := [m], state := Suspended);
      var r := OnTagFound(waiting, Some(Tag(Some("T1"), Some("Tag1"), true)));
      && r.activity.queue == [] && r.activity.state == Running && r.effects == []
  {
    var m := Message("T2", "hello");
    assert Matching([m], Some("T1")) == [] by {
      assert !AddressedTo(m, Some("T1"));
    }
  }
}

=== FILE: java_lang.dfy ===
/** The small part of the Java platform the player's code leans on: nullable
    references, `String` concatenation of `null`, `Boolean.parseBoolean`,
    `Integer.toString`, 32-bit `int` arithmetic and `String.hashCode`. */
module JavaLang {

  /** A reference that may be null (`None`). */
  datatype Option<+T> = None | Some(value: T)

  /** A computation that either yields a value or throws. */
  datatype Result<+R, +E> = Success(value: R) | Failure(error: E)

  /** A Java `String` reference: `None` is `null`. */
  type JString = Option<string>

  newtype byte = x: int | 0 <= x < 256

  const IntMin: int := -0x8000_0000
  const IntMax: int := 0x7fff_ffff
  const IntModulus: int := 0x1_0000_0000

  /** `TextUtils.isEmpty`: null or of length zero. */
  predicate IsEmpty(s: JString) {
    s.None? || |s.value| == 0
  }

  /** What `"" + s` produces for a `String` reference: null prints as "null". */
  function Render(s: JString): string {
    match s
    case None => "null"
    case Some(v) => v
  }

  /** `String.valueOf(boolean)`. */
  function BoolToString(b: bool): string {
    if b then "true" else "false"
  }

  /** The lower-case form of an ASCII letter; every other character is itself. */
  function AsciiLower(c: char): char {
    if 'A' <= c <= 'Z' then (c as int - 'A' as int + 'a' as int) as char else c
  }

  /** `Boolean.parseBoolean`: true exactly for "true" in any mix of cases.
      (For the four letters of "true" Java's case-insensitive comparison
      coincides with ASCII case folding.) */
  function ParseBoolean(s: string): (r: bool)
    ensures r <==> |s| == 4 && AsciiLower(s[0]) == 't' && AsciiLower(s[1]) == 'r'
                   && AsciiLower(s[2]) == 'u' && AsciiLower(s[3]) == 'e'
  {
    |s| == 4 && forall i :: 0 <= i < 4 ==> AsciiLower(s[i]) == "true"[i]
  }

  /** Printing a boolean and parsing it back gives the same boolean. */
  lemma ParseBooleanOfBoolToString(b: bool)
    ensures ParseBoolean(BoolToString(b)) == b
  {
    if !b {
      assert AsciiLower(BoolToString(b)[0]) != "true"[0];
    }
  }

  function DigitChar(d: nat): (c: char)
    requires d < 10
    ensures '0' <= c <= '9'
  {
    ('0' as int + d) as char
  }

  /** `Integer.toString` for a non-negative value: decimal digits, no leading zero. */
  function NatToString(n: nat): (r: string)
    ensures |r| >= 1
    ensures forall i :: 0 <= i < |r| ==> '0' <= r[i] <= '9'
    ensures |r| > 1 ==> r[0] != '0'
    decreases n
  {
    if n < 10 then [DigitChar(n)] else NatToString(n / 10) + [DigitChar(n % 10)]
  }

  /** The value of a string of decimal digits. */
  function DecimalValue(s: string): nat
    requires forall i :: 0 <= i < |s| ==> '0' <= s[i] <= '9'
  {
    if |s| == 0 then 0 else 10 * DecimalValue(s[..|s| - 1]) + (s[|s| - 1] as int - '0' as int)
  }

  /** Reading back the printed digits of `n` gives `n`. */
  lemma {:induction false} DecimalValueOfNatToString(n: nat)
    ensures DecimalValue(NatToString(n)) == n
    decreases n
  {
    if n >= 10 {
      var r := NatToString(n);
      assert r[..|r| - 1] == NatToString(n / 10);
      DecimalValueOfNatToString(n / 10);
    }
  }

  /** Two integers that Java's 32-bit `int` cannot tell apart. */
  predicate SameInt32(x: int, y: int) {
    (x - y) % IntModulus == 0
  }

  /** The 32-bit two's-complement value of an unbounded integer. */
  function WrapInt(x: int): (r: int)
    ensures IntMin <= r <= IntMax
    ensures SameInt32(r, x)
  {
    (x - IntMin) % IntModulus + IntMin
  }

  function Pow31(n: nat): nat {
    if n == 0 then 1 else 31 * Pow31(n - 1)
  }

  /** The documented value of `String.hashCode` before 32-bit truncation:
      s[0]*31^(n-1) + s[1]*31^(n-2) + ... + s[n-1]. */
  function PolynomialHash(s: string): int {
    if |s| == 0 then 0 else (s[0] as int) * Pow31(|s| - 1) + PolynomialHash(s[1..])
  }

  /** `String.hashCode` as Java computes it: h = 31*h + c over the characters,
      in 32-bit arithmetic; the empty string hashes to 0. */
  function StringHashCode(s: string): (h: int)
    ensures IntMin <= h <= IntMax
    ensures |s| == 0 ==> h == 0
  {
    if |s| == 0 then 0 else WrapInt(31 * StringHashCode(s[..|s| - 1]) + s[|s| - 1] as int)
  }

  lemma {:induction false} PolynomialHashSnoc(s: string, c: char)
    ensures PolynomialHash(s + [c]) == 31 * PolynomialHash(s) + c as int
    decreases |s|
  {
    if |s| == 0 {
      assert s + [c] == [c];
    } else {
      var t := s + [c];
      assert t[1..] == s[1..] + [c];
      PolynomialHashSnoc(s[1..], c);
      var a := s[0] as int;
      assert a * Pow31(|s|) == 31 * (a * Pow31(|s| - 1)) by {
        assert Pow31(|s|) == 31 * Pow31(|s| - 1);
      }
    }
  }

  /** A multiple of 2^32 is congruent to zero. */
  lemma MultipleIsZero(k: int)
    ensures (k * IntModulus) % IntModulus == 0
  {
  }

  /** Congruent values stay congruent when multiplied by 31 and shifted by `c`. */
  lemma SameInt32Step(a: int, b: int, c: int)
    requires SameInt32(a, b)
    ensures SameInt32(31 * a + c, 31 * b + c)
  {
    var d := a - b;
    var k := d / IntModulus;
    assert d == k * IntModulus + d % IntModulus;
    assert (31 * a + c) - (31 * b + c) == 31 * d;
    assert 31 * d == (31 * k) * IntModulus;
    MultipleIsZero(31 * k);
  }

  /** The iterative hash agrees, modulo 2^32, with the documented polynomial. */
  lemma {:induction false} StringHashCodeIsPolynomial(s: string)
    ensures SameInt32(StringHashCode(s), PolynomialHash(s))
    decreases |s|
  {
    if |s| > 0 {
      var p := s[..|s| - 1];
      var c := s[|s| - 1];
      assert s == p + [c];
      StringHashCodeIsPolynomial(p);
      PolynomialHashSnoc(p, c);
      SameInt32Step(StringHashCode(p), PolynomialHash(p), c as int);
      var x := 31 * StringHashCode(p) + c as int;
      SameInt32Trans(WrapInt(x), x, 31 * PolynomialHash(p) + c as int);
    }
  }

  /** Congruence modulo 2^32 is transitive. */
  lemma SameInt32Trans(a: int, b: int, c: int)
    requires SameInt32(a, b) && SameInt32(b, c)
    ensures SameInt32(a, c)
  {
    var k1 := (a - b) / IntModulus;
    var k2 := (b - c) / IntModulus;
    assert a - c == (k1 + k2) * IntModulus;
    MultipleIsZero(k1 + k2);
  }
}

=== FILE: java_text.dfy ===
/** `String.split(",")` and `BufferedReader.readLine`, the two ways the tag
    store cuts its file apart. */
module JavaText {

  /** The position of the first `c` in `s`, or `|s|` when there is none. */
  function IndexOf(s: string, c: char): (i: nat)
    ensures i <= |s|
    ensures i < |s| ==> s[i] == c
    ensures forall j :: 0 <= j < i ==> s[j] != c
  {
    if |s| == 0 then 0 else if s[0] == c then 0 else 1 + IndexOf(s[1..], c)
  }

  /** The number of occurrences of `c` in `s`. */
  function Count(s: string, c: char): nat {
    if |s| == 0 then 0 else (if s[0] == c then 1 else 0) + Count(s[1..], c)
  }

  lemma {:induction false} CountAppend(a: string, b: string, c: char)
    ensures Count(a + b, c) == Count(a, c) + Count(b, c)
    decreases |a|
  {
    if |a| == 0 {
      assert a + b == b;
    } else {
      assert (a + b)[1..] == a[1..] + b;
      CountAppend(a[1..], b, c);
    }
  }

  lemma {:induction false} CountZero(s: string, c: char)
    ensures Count(s, c) == 0 <==> c !in s
    decreases |s|
  {
    if |s| > 0 {
      CountZero(s[1..], c);
      assert c in s <==> s[0] == c || c in s[1..];
    }
  }

  /** Every piece of `s` between commas, empty ones included: the regular
      expression split before Java trims trailing empty strings. */
  function Fields(s: string): (r: seq<string>)
    ensures |r| >= 1
    ensures forall k :: 0 <= k < |r| ==> ',' !in r[k]
    decreases |s|
  {
    var i := IndexOf(s, ',');
    if i == |s| then [s] else [s[..i]] + Fields(s[i + 1..])
  }

  /** The fields put back together with a comma between neighbours. */
  function Join(fs: seq<string>): string
    requires |fs| >= 1
  {
    if |fs| == 1 then fs[0] else fs[0] + "," + Join(fs[1..])
  }

  predicate CommaFree(fs: seq<string>) {
    forall k :: 0 <= k < |fs| ==> ',' !in fs[k]
  }

  /** Joining the fields of a string gives the string back. */
  lemma {:induction false} JoinFields(s: string)
    ensures Join(Fields(s)) == s
    decreases |s|
  {
    var i := IndexOf(s, ',');
    if i < |s| {
      JoinFields(s[i + 1..]);
      assert s == s[..i] + "," + s[i + 1..];
    }
  }

  /** Splitting a join of comma-free fields gives the same fields. */
  lemma {:induction false} FieldsJoin(fs: seq<string>)
    requires |fs| >= 1 && CommaFree(fs)
    ensures Fields(Join(fs)) == fs
    decreases |fs|
  {
    var s := Join(fs);
    if |fs| == 1 {
      assert IndexOf(s, ',') == |s|;
    } else {
      var rest := Join(fs[1..]);
      assert s == fs[0] + "," + rest;
      var i := IndexOf(s, ',');
      assert s[|fs[0]|] == ',';
      assert i == |fs[0]|;
      assert s[..i] == fs[0];
      assert s[i + 1..] == rest;
      FieldsJoin(fs[1..]);
    }
  }

  /** A string has one more field than it has commas. */
  lemma {:induction false} FieldsCount(s: string)
    ensures |Fields(s)| == Count(s, ',') + 1
    decreases |s|
  {
    var i := IndexOf(s, ',');
    if i == |s| {
      CountZero(s, ',');
    } else {
      FieldsCount(s[i + 1..]);
      assert s == s[..i] + ([s[i]] + s[i + 1..]);
      CountAppend(s[..i], [s[i]] + s[i + 1..], ',');
      CountAppend([s[i]], s[i + 1..], ',');
      CountZero(s[..i], ',');
    }
  }

  /** The last field is what follows the last comma. */
  lemma {:induction false} LastField(s: string)
    ensures var fs := Fields(s); |fs[|fs| - 1]| <= |s| && fs[|fs| - 1] == s[|s| - |fs[|fs| - 1]|..]
    decreases |s|
  {
    var i := IndexOf(s, ',');
    if i < |s| {
      LastField(s[i + 1..]);
    }
  }

  /** `fs` with every empty string at its end removed. */
  function TrimTrailingEmpty(fs: seq<string>): (r: seq<string>)
    ensures r <= fs
    ensures |r| == 0 || |r[|r| - 1]| > 0
    ensures forall k :: |r| <= k < |fs| ==> |fs[k]| == 0
  {
    if |fs| > 0 && |fs[|fs| - 1]| == 0 then TrimTrailingEmpty(fs[..|fs| - 1]) else fs
  }

  /** Java's `s.split(",")`: a string without a comma is its own single field
      (so "" gives one field); otherwise the fields, with trailing empty ones
      dropped (so "a,," gives one field and "," gives none). */
  function Split(s: string): (r: seq<string>)
    ensures ',' !in s ==> r == [s]
    ensures ',' in s ==> r <= Fields(s) && (|r| == 0 || |r[|r| - 1]| > 0)
    ensures ',' in s ==> forall k :: |r| <= k < |Fields(s)| ==> |Fields(s)[k]| == 0
    ensures CommaFree(r)
  {
    if ',' !in s then [s] else TrimTrailingEmpty(Fields(s))
  }

  /** When a string does not end in a comma nothing is trimmed: it splits
      into one more field than it has commas. */
  lemma SplitCount(s: string)
    requires |s| > 0 && s[|s| - 1] != ','
    ensures Split(s) == Fields(s)
    ensures |Split(s)| == Count(s, ',') + 1
  {
    FieldsCount(s);
    CountZero(s, ',');
    if ',' in s {
      LastField(s);
      var fs := Fields(s);
      var last := fs[|fs| - 1];
      if |last| == 0 {
        var i := IndexOf(s, ',');
        assert Fields(s) == [s[..i]] + Fields(s[i + 1..]);
        LastEndsWithComma(s);
      }
    }
  }

  /** An empty last field means the string ends in a comma. */
  lemma {:induction false} LastEndsWithComma(s: string)
    requires ',' in s
    requires var fs := Fields(s); |fs[|fs| - 1]| == 0
    ensures |s| > 0 && s[|s| - 1] == ','
    decreases |s|
  {
    var i := IndexOf(s, ',');
    var t := s[i + 1..];
    if |t| > 0 {
      var ft := Fields(t);
      assert ft[|ft| - 1] == Fields(s)[|Fields(s)| - 1];
      if ',' in t {
        LastEndsWithComma(t);
        assert s[|s| - 1] == t[|t| - 1];
      }
    }
  }

  /** The three-field line `a,b,c` with a non-empty last field splits back into its fields. */
  lemma SplitThree(a: string, b: string, c: string)
    requires ',' !in a && ',' !in b && ',' !in c && |c| > 0
    ensures Split(a + "," + b + "," + c) == [a, b, c]
  {
    var s := a + "," + b + "," + c;
    assert Join([a, b, c]) == s by {
      assert Join([a, b, c][1..]) == b + "," + c;
    }
    FieldsJoin([a, b, c]);
    assert s[|a|] == ',';
    assert s[|s| - 1] == c[|c| - 1];
    SplitCount(s);
  }

  predicate IsLineBreak(c: char) {
    c == '\n' || c == '\r'
  }

  /** The position of the first line break in `s`, or `|s|`. */
  function LineEnd(s: string): (i: nat)
    ensures i <= |s|
    ensures i < |s| ==> IsLineBreak(s[i])
    ensures forall j :: 0 <= j < i ==> !IsLineBreak(s[j])
  {
    if |s| == 0 then 0 else if IsLineBreak(s[0]) then 0 else 1 + LineEnd(s[1..])
  }

  predicate NoLineBreak(s: string) {
    forall j :: 0 <= j < |s| ==> !IsLineBreak(s[j])
  }

  /** The successive results of `BufferedReader.readLine` on the text `s`: a
      line ends at "\n", "\r" or "\r\n", the terminator is not part of it,
      and a last line without terminator is still returned. */
  function ReadLines(s: string): (r: seq<string>)
    ensures forall k :: 0 <= k < |r| ==> NoLineBreak(r[k])
    ensures |s| > 0 <==> |r| > 0
    decreases |s|
  {
    if |s| == 0 then []
    else
      var i := LineEnd(s);
      if i == |s| then [s]
      else if s[i] == '\r' && i + 1 < |s| && s[i + 1] == '\n' then [s[..i]] + ReadLines(s[i + 2..])
      else [s[..i]] + ReadLines(s[i + 1..])
  }

  /** Text written with nothing but "\n" after every line. */
  function Terminated(lines: seq<string>): string {
    if |lines| == 0 then "" else lines[0] + "\n" + Terminated(lines[1..])
  }

  /** Reading back lines that were each written with a "\n" terminator
      gives the same lines. */
  lemma {:induction false} ReadLinesTerminated(lines: seq<string>)
    requires forall k :: 0 <= k < |lines| ==> NoLineBreak(lines[k])
    ensures ReadLines(Terminated(lines)) == lines
    decreases |lines|
  {
    if |lines| > 0 {
      var s := Terminated(lines);
      var l := lines[0];
      assert s == l + ("\n" + Terminated(lines[1..]));
      assert s[|l|] == '\n';
      assert LineEnd(s) == |l|;
      assert s[..|l|] == l;
      assert s[|l| + 1..] == Terminated(lines[1..]);
      ReadLinesTerminated(lines[1..]);
    }
  }

  /** Text without any line break is one line (or none, when empty). */
  lemma ReadLinesSingle(s: string)
    requires NoLineBreak(s)
    ensures |s| > 0 ==> ReadLines(s) == [s]
    ensures |s| == 0 ==> ReadLines(s) == []
  {
  }
}

=== FILE: proximity.dfy ===
/** The proximity service: a time-boxed radio scan, one builder per connected
    device holding a stack of attributes still to read, and the assembly of
    a tag from the identifier and name attributes once the stack runs dry.
    Every radio and GATT callback is an input event; every call into the
    Bluetooth stack is an output effect. */
module Proximity {
  import opened JavaLang
  import opened TagModel
  import opened Sequences

  /** A device's hardware address. */
  type Address = string

  /** A 128-bit Bluetooth UUID. */
  newtype Uuid = x: int | 0 <= x < 0x1_0000_0000_0000_0000_0000_0000_0000_0000

  const LinkLossService: Uuid := 0x0000_1802_0000_1000_8000_0080_5f9b_34fb
  const AlertLevelCharacteristic: Uuid := 0x0000_2a06_0000_1000_8000_0080_5f9b_34fb
  /** The tag's service, and its identifier and name attributes. */
  const TagService: Uuid := LinkLossService
  const TagIdAttribute: Uuid := AlertLevelCharacteristic
  const TagNameAttribute: Uuid := 0x0000_db5c_0000_1000_8000_0080_5f9b_34fb

  /** How long a scan runs before it expires. */
  const ScanPeriodMs: nat := 10000

  /** An attribute as the GATT client sees it: its UUID and the value last
      read (null until a read has completed). */
  datatype Characteristic = Characteristic(uuid: Uuid, value: Option<seq<byte>>)
  datatype GattService = GattService(uuid: Uuid, characteristics: seq<Characteristic>)
  /** The services a connected device has been discovered to offer. */
  type Gatt = seq<GattService>

  /** The per-device builder: the attributes still to be read, the next one
      at the front (the deque is used as a stack). The builder's own GATT
      connection is not kept: each callback's services stand for it. */
  datatype Builder = Builder(readQueue: seq<Uuid>)

  /** The service's state: whether a scan is on, how many expiry tasks are
      still posted, and the builders of the current scan. */
  datatype Scanner = Scanner(scanning: bool, pendingExpiries: nat, builders: map<Address, Builder>)

  const Initial: Scanner := Scanner(false, 0, map[])

  datatype ConnectionState = Connected | Disconnected | Connecting | Disconnecting

  /** What the service asks of the platform. */
  datatype Effect =
    | StartLeScan
    | StopLeScan
    | PostExpiry(delayMs: nat)
    | BroadcastScanEnded
    | BroadcastTagFound(tag: Tag)
    | Disconnect(devices: set<Address>)
    | ConnectGatt(device: Address)
    | DiscoverServices(device: Address)
    | ReadCharacteristic(device: Address, uuid: Uuid)
    | CloseGatt(device: Address)

  datatype Reaction = Reaction(scanner: Scanner, effects: seq<Effect>)

  /** The result of a callback: its reaction, or the NullPointerException a
      read completion throws for a device that has no builder. */
  datatype Outcome = Handled(reaction: Reaction) | Crashed

  /** `scan(enable)`. Starting while a scan is on does nothing; starting
      otherwise posts one expiry, installs an empty builder map and starts
      the radio. Stopping clears the flag and stops the radio if a scan was
      on, and never cancels a posted expiry. */
  function Scan(s: Scanner, enable: bool): (r: Reaction)
    ensures enable && s.scanning ==> r == Reaction(s, [])
    ensures enable && !s.scanning ==>
      r.scanner.scanning && r.scanner.builders == map[] &&
      r.scanner.pendingExpiries == s.pendingExpiries + 1 &&
      CountExpiriesPosted(r.effects) == 1 && StartLeScan in r.effects
    ensures !enable ==>
      !r.scanner.scanning && r.scanner.pendingExpiries == s.pendingExpiries &&
      r.scanner.builders == s.builders && CountExpiriesPosted(r.effects) == 0
    ensures !enable && !s.scanning ==> r == Reaction(s, [])
    ensures !enable && s.scanning ==> r == Reaction(s.(scanning := false), [StopLeScan])
  {
    if enable then
      if s.scanning then Reaction(s, [])
      else Reaction(Scanner(true, s.pendingExpiries + 1, map[]), [PostExpiry(ScanPeriodMs), StartLeScan])
    else
      if s.scanning then Reaction(s.(scanning := false), [StopLeScan])
      else Reaction(s, [])
  }

  /** The expiry task: clears the flag, stops the radio, broadcasts one
      scan-ended and disconnects every device in the builder map (which it
      leaves in place). */
  function OnExpiry(s: Scanner): (r: Reaction)
    requires s.pendingExpiries > 0
    ensures !r.scanner.scanning
    ensures r.scanner.pendingExpiries == s.pendingExpiries - 1
    ensures r.scanner.builders == s.builders
    ensures CountScanEnded(r.effects) == 1
    ensures CountExpiriesPosted(r.effects) == 0
    ensures StopLeScan in r.effects && Disconnect(s.builders.Keys) in r.effects
  {
    Reaction(Scanner(false, s.pendingExpiries - 1, s.builders),
             [StopLeScan, BroadcastScanEnded, Disconnect(s.builders.Keys)])
  }

  /** A scan result: connect to the device, whatever was seen before. */
  function OnDeviceFound(s: Scanner, device: Address): (r: Reaction)
    ensures r.scanner == s && r.effects == [ConnectGatt(device)]
  {
    Reaction(s, [ConnectGatt(device)])
  }

  /** `onConnectionStateChange`: on connection a fresh builder with nothing
      to read replaces any builder for that device and service discovery is
      requested; on disconnection the connection is closed. */
  function OnConnectionStateChange(s: Scanner, device: Address, newState: ConnectionState): (r: Reaction)
    ensures newState == Connected ==>
      r.scanner.builders == s.builders[device := Builder([])] && r.effects == [DiscoverServices(device)]
    ensures newState != Connected ==> r.scanner == s
    ensures r.scanner.scanning == s.scanning && r.scanner.pendingExpiries == s.pendingExpiries
  {
    match newState
    case Connected => Reaction(s.(builders := s.builders[device := Builder([])]), [DiscoverServices(device)])
    case Disconnected => Reaction(s, [CloseGatt(device)])
    case _ => Reaction(s, [])
  }

  /** The first element whose UUID is `uuid`, as the platform's look-ups by
      UUID return it. */
  function FindFirst<T>(xs: seq<T>, uuidOf: T -> Uuid, uuid: Uuid): (r: Option<T>)
    ensures r.Some? ==> r.value in xs && uuidOf(r.value) == uuid
    ensures r.None? ==> forall i :: 0 <= i < |xs| ==> uuidOf(xs[i]) != uuid
  {
    if |xs| == 0 then None
    else if uuidOf(xs[0]) == uuid then Some(xs[0])
    else FindFirst(xs[1..], uuidOf, uuid)
  }

  /** `gatt.getService(uuid)`. */
  function FindService(gatt: Gatt, uuid: Uuid): Option<GattService> {
    FindFirst(gatt, (g: GattService) => g.uuid, uuid)
  }

  /** `service.getCharacteristic(uuid)`. */
  function FindCharacteristic(cs: seq<Characteristic>, uuid: Uuid): Option<Characteristic> {
    FindFirst(cs, (c: Characteristic) => c.uuid, uuid)
  }

  function Uuids(cs: seq<Characteristic>): (r: seq<Uuid>)
    ensures |r| == |cs|
    ensures forall i :: 0 <= i < |cs| ==> r[i] == cs[i].uuid
  {
    if |cs| == 0 then [] else [cs[0].uuid] + Uuids(cs[1..])
  }

  /** The attributes the tag's service declares, in declaration order; none
      when the device lacks the service. */
  function DeclaredAttributes(gatt: Gatt): seq<Uuid> {
    match FindService(gatt, TagService)
    case None => []
    case Some(service) => Uuids(service.characteristics)
  }

  /** `queueCharacteristics`' loop: each attribute pushed on the front. */
  function PushAll(queue: seq<Uuid>, cs: seq<Uuid>): seq<Uuid>
    decreases |cs|
  {
    if |cs| == 0 then queue else PushAll([cs[0]] + queue, cs[1..])
  }

  /** Pushing attributes one by one leaves them in reverse order in front of
      whatever was already queued. */
  lemma {:induction false} PushAllReverses(queue: seq<Uuid>, cs: seq<Uuid>)
    ensures PushAll(queue, cs) == Reverse(cs) + queue
    decreases |cs|
  {
    if |cs| > 0 {
      PushAllReverses([cs[0]] + queue, cs[1..]);
      assert Reverse(cs) == Reverse(cs[1..]) + [cs[0]];
    }
  }

  /** `readNextCharacteristic`: pop the front attribute and read it; on an
      empty stack the pop throws, is caught, and nothing happens. */
  function ReadNext(b: Builder, device: Address): (r: (Builder, seq<Effect>))
    ensures |b.readQueue| == 0 ==> r == (b, [])
    ensures |b.readQueue| > 0 ==>
      r.0.readQueue == b.readQueue[1..] && r.1 == [ReadCharacteristic(device, b.readQueue[0])]
  {
    if |b.readQueue| == 0 then (b, [])
    else (Builder(b.readQueue[1..]), [ReadCharacteristic(device, b.readQueue[0])])
  }

  /** `onServicesDiscovered`: on success, and when the device has a builder,
      push the declared attributes and read the first one popped. */
  function OnServicesDiscovered(s: Scanner, device: Address, success: bool, gatt: Gatt): (r: Reaction)
    ensures !success || device !in s.builders ==> r == Reaction(s, [])
    ensures success && device in s.builders ==>
      var queued := Reverse(DeclaredAttributes(gatt)) + s.builders[device].readQueue;
      && r.scanner == s.(builders := s.builders[device := ReadNext(Builder(queued), device).0])
      && r.effects == ReadNext(Builder(queued), device).1
  {
    if success && device in s.builders then
      var b := Builder(PushAll(s.builders[device].readQueue, DeclaredAttributes(gatt)));
      PushAllReverses(s.builders[device].readQueue, DeclaredAttributes(gatt));
      var (b', effects) := ReadNext(b, device);
      Reaction(s.(builders := s.builders[device := b']), effects)
    else Reaction(s, [])
  }

  /** `readCharacteristicValue`: the attribute's last read value decoded as
      text, or null when the service or attribute is missing or the value
      is null or empty. */
  function ReadCharacteristicValue(gatt: Gatt, uuid: Uuid): (r: JString)
    ensures r.Some? <==> RawValue(gatt, uuid).Some? && |RawValue(gatt, uuid).value| > 0
    ensures r.Some? ==> r.value == Decode(RawValue(gatt, uuid).value)
  {
    match FindService(gatt, TagService)
    case None => None
    case Some(service) =>
      match FindCharacteristic(service.characteristics, uuid)
      case None => None
      case Some(c) =>
        if c.value.Some? && |c.value.value| > 0 then Some(Decode(c.value.value)) else None
  }

  /** The bytes the attribute holds, if the service, the attribute and a
      value are all there. */
  function RawValue(gatt: Gatt, uuid: Uuid): Option<seq<byte>> {
    match FindService(gatt, TagService)
    case None => None
    case Some(service) =>
      match FindCharacteristic(service.characteristics, uuid)
      case None => None
      case Some(c) => c.value
  }

  /** `new String(bytes)`, taken byte for byte. */
  function Decode(data: seq<byte>): (r: string)
    ensures |r| == |data|
  {
    seq(|data|, i requires 0 <= i < |data| => data[i] as int as char)
  }

  /** The tag a finished builder yields: both identifier and name values
      must be present and non-empty, and the tag is interactive. */
  function AssembleTag(gatt: Gatt): (r: Option<Tag>)
    ensures r.Some? <==>
      && RawValue(gatt, TagIdAttribute).Some? && |RawValue(gatt, TagIdAttribute).value| > 0
      && RawValue(gatt, TagNameAttribute).Some? && |RawValue(gatt, TagNameAttribute).value| > 0
    ensures r.Some? ==>
      r.value == Tag(Some(Decode(RawValue(gatt, TagIdAttribute).value)),
                     Some(Decode(RawValue(gatt, TagNameAttribute).value)), true)
  {
    var id := ReadCharacteristicValue(gatt, TagIdAttribute);
    var name := ReadCharacteristicValue(gatt, TagNameAttribute);
    if id.Some? && name.Some? then Some(MakeTag(id, name, true)) else None
  }

  /** `onCharacteristicRead`. A failed read does nothing, so the device's
      sequence stops. A successful one reads the next attribute while any is
      left, and otherwise assembles the tag and broadcasts it if there is one. */
  function OnCharacteristicRead(s: Scanner, device: Address, success: bool, gatt: Gatt): (r: Outcome)
    ensures !success ==> r == Handled(Reaction(s, []))
    ensures success && device !in s.builders ==> r.Crashed?
    ensures success && device in s.builders && |s.builders[device].readQueue| > 0 ==>
      var q := s.builders[device].readQueue;
      r == Handled(Reaction(s.(builders := s.builders[device := Builder(q[1..])]), [ReadCharacteristic(device, q[0])]))
    ensures success && device in s.builders && |s.builders[device].readQueue| == 0 ==>
      && r.Handled? && r.reaction.scanner == s
      && (AssembleTag(gatt).Some? ==> r.reaction.effects == [BroadcastTagFound(AssembleTag(gatt).value)])
      && (AssembleTag(gatt).None? ==> r.reaction.effects == [])
  {
    if !success then Handled(Reaction(s, []))
    else if device !in s.builders then Crashed
    else
      var b := s.builders[device];
      if |b.readQueue| > 0 then
        var (b', effects) := ReadNext(b, device);
        Handled(Reaction(s.(builders := s.builders[device := b']), effects))
      else
        match AssembleTag(gatt)
        case None => Handled(Reaction(s, []))
        case Some(tag) => Handled(Reaction(s, [BroadcastTagFound(tag)]))
  }

  /** The service's inputs. */
  datatype Event =
    | ScanRequest(enable: bool)
    | ExpiryFires
    | DeviceFound(device: Address)
    | ConnectionStateChange(device: Address, newState: ConnectionState)
    | ServicesDiscovered(device: Address, success: bool, gatt: Gatt)
    | CharacteristicRead(device: Address, success: bool, gatt: Gatt)

  /** One event. An expiry can only fire when one is posted; with none
      posted the event is not delivered and nothing changes. Only a read
      completion for a device without a builder crashes; only scan requests
      and expiries touch the scan window; only an expiry ends a scan and only
      a read completion reports a tag. */
  function Step(s: Scanner, e: Event): (r: Outcome)
    ensures r.Crashed? <==> e.CharacteristicRead? && e.success && e.device !in s.builders
    ensures r.Handled? && !e.ScanRequest? && !e.ExpiryFires? ==>
      r.reaction.scanner.scanning == s.scanning && r.reaction.scanner.pendingExpiries == s.pendingExpiries
    ensures r.Handled? && BroadcastScanEnded in r.reaction.effects ==> e.ExpiryFires? && s.pendingExpiries > 0
    ensures r.Handled? ==> forall k :: 0 <= k < |r.reaction.effects| && r.reaction.effects[k].BroadcastTagFound? ==>
      e.CharacteristicRead? && e.success
  {
    match e
    case ScanRequest(enable) => Handled(Scan(s, enable))
    case ExpiryFires => if s.pendingExpiries > 0 then Handled(OnExpiry(s)) else Handled(Reaction(s, []))
    case DeviceFound(d) => Handled(OnDeviceFound(s, d))
    case ConnectionStateChange(d, st) => Handled(OnConnectionStateChange(s, d, st))
    case ServicesDiscovered(d, ok, gatt) => Handled(OnServicesDiscovered(s, d, ok, gatt))
    case CharacteristicRead(d, ok, gatt) => OnCharacteristicRead(s, d, ok, gatt)
  }

  /** A run of events, effects concatenated; it stops at the first crash. */
  function Run(s: Scanner, es: seq<Event>): Outcome
    decreases |es|
  {
    if |es| == 0 then Handled(Reaction(s, []))
    else
      match Step(s, es[0])
      case Crashed => Crashed
      case Handled(first) =>
        match Run(first.scanner, es[1..])
        case Crashed => Crashed
        case Handled(rest) => Handled(Reaction(rest.scanner, first.effects + rest.effects))
  }

  /** The expiry tasks a list of effects posts. */
  function CountExpiriesPosted(effects: seq<Effect>): nat {
    multiset(effects)[PostExpiry(ScanPeriodMs)]
  }

  /** The scan-ended broadcasts in a list of effects. */
  function CountScanEnded(effects: seq<Effect>): nat {
    multiset(effects)[BroadcastScanEnded]
  }

  /** Each event keeps the books: expiries posted by it plus those posted
      before equal the scan-ended broadcasts it makes plus those still posted. */
  lemma StepAccounting(s: Scanner, e: Event)
    requires Step(s, e).Handled?
    ensures var r := Step(s, e).reaction;
      s.pendingExpiries + CountExpiriesPosted(r.effects) == r.scanner.pendingExpiries + CountScanEnded(r.effects)
  {
    var r := Step(s, e).reaction;
    match e
    case ScanRequest(enable) =>
      if enable && !s.scanning {
        assert r.effects == [PostExpiry(ScanPeriodMs), StartLeScan];
        assert CountScanEnded(r.effects) == 0;
      } else if !enable && s.scanning {
        assert r.effects == [StopLeScan];
      }
    case ExpiryFires =>
      if s.pendingExpiries > 0 {
        assert r.effects == [StopLeScan, BroadcastScanEnded, Disconnect(s.builders.Keys)];
      }
    case DeviceFound(d) =>
      assert r.effects == [ConnectGatt(d)];
    case ConnectionStateChange(d, st) =>
      assert r.effects == [DiscoverServices(d)] || r.effects == [CloseGatt(d)] || r.effects == [];
    case ServicesDiscovered(d, ok, gatt) =>
    case CharacteristicRead(d, ok, gatt) =>
      assert r.scanner.pendingExpiries == s.pendingExpiries;
  }

  /** Over any run, every expiry ever posted has either fired, broadcasting
      exactly one scan-ended, or is still posted: scan-ended signals
      correspond one for one with accepted scan starts. */
  lemma {:induction false} RunAccounting(s: Scanner, es: seq<Event>)
    requires Run(s, es).Handled?
    ensures var r := Run(s, es).reaction;
      s.pendingExpiries + CountExpiriesPosted(r.effects) == r.scanner.pendingExpiries + CountScanEnded(r.effects)
    decreases |es|
  {
    if |es| > 0 {
      var first := Step(s, es[0]).reaction;
      StepAccounting(s, es[0]);
      RunAccounting(first.scanner, es[1..]);
      var rest := Run(first.scanner, es[1..]).reaction.effects;
      assert multiset(first.effects + rest) == multiset(first.effects) + multiset(rest);
    }
  }

  /** Starting a scan twice is starting it once. */
  lemma StartIsIdempotent(s: Scanner)
    ensures Scan(Scan(s, true).scanner, true) == Reaction(Scan(s, true).scanner, [])
  {
  }

  /** Stopping and restarting before the first expiry leaves two expiries
      posted: the first will end the second scan early. */
  lemma StopRestartDoublesExpiries(s: Scanner)
    requires !s.scanning && s.pendingExpiries == 0
    ensures var r := Scan(Scan(Scan(s, true).scanner, false).scanner, true).scanner;
      r.scanning && r.pendingExpiries == 2
  {
  }

  /** `n` successful read completions for one device, effects concatenated. */
  function Completions(s: Scanner, device: Address, gatt: Gatt, n: nat): Outcome
    decreases n
  {
    if n == 0 then Handled(Reaction(s, []))
    else
      match OnCharacteristicRead(s, device, true, gatt)
      case Crashed => Crashed
      case Handled(first) =>
        match Completions(first.scanner, device, gatt, n - 1)
        case Crashed => Crashed
        case Handled(rest) => Handled(Reaction(rest.scanner, first.effects + rest.effects))
  }

  /** The reads a builder with stack `q` issues, front first. */
  function ReadsOf(device: Address, q: seq<Uuid>): (r: seq<Effect>)
    ensures |r| == |q|
    ensures forall i :: 0 <= i < |q| ==> r[i] == ReadCharacteristic(device, q[i])
  {
    if |q| == 0 then [] else [ReadCharacteristic(device, q[0])] + ReadsOf(device, q[1..])
  }

  /** While attributes are left, each successful completion pops and reads
      exactly one: `n` completions read the first `n` of the stack, in stack
      order, and change nothing else. */
  lemma {:induction false} CompletionsPop(s: Scanner, device: Address, gatt: Gatt, n: nat)
    requires device in s.builders && n <= |s.builders[device].readQueue|
    ensures var q := s.builders[device].readQueue;
      Completions(s, device, gatt, n) ==
        Handled(Reaction(s.(builders := s.builders[device := Builder(q[n..])]), ReadsOf(device, q[..n])))
    decreases n
  {
    var q := s.builders[device].readQueue;
    if n == 0 {
      assert s.(builders := s.builders[device := Builder(q[0..])]) == s;
    } else {
      var s1 := s.(builders := s.builders[device := Builder(q[1..])]);
      CompletionsPop(s1, device, gatt, n - 1);
      assert q[1..][n - 1..] == q[n..];
      assert s1.(builders := s1.builders[device := Builder(q[n..])]) ==
             s.(builders := s.builders[device := Builder(q[n..])]);
      assert ReadsOf(device, q[..n]) == [ReadCharacteristic(device, q[0])] + ReadsOf(device, q[1..][..n - 1]) by {
        assert q[..n][1..] == q[1..][..n - 1];
      }
    }
  }

  /** The whole sequence for a freshly connected device whose tag service
      declares `k >= 1` attributes: discovery reads the last declared one,
      the next `k - 1` completions read the rest in reverse declaration
      order, and the `k`-th completion assembles the tag, broadcast if both
      values are there. */
  lemma ReadSequence(s: Scanner, device: Address, gatt: Gatt)
    requires device in s.builders && s.builders[device].readQueue == []
    requires |DeclaredAttributes(gatt)| >= 1
    ensures var cs := DeclaredAttributes(gatt);
      var k := |cs|;
      var d := OnServicesDiscovered(s, device, true, gatt);
      && d.effects == [ReadCharacteristic(device, cs[k - 1])]
      && Completions(d.scanner, device, gatt, k - 1).Handled?
      && var mid := Completions(d.scanner, device, gatt, k - 1).reaction;
      && mid.effects == ReadsOf(device, Reverse(cs)[1..])
      && device in mid.scanner.builders && mid.scanner.builders[device].readQueue == []
      && OnCharacteristicRead(mid.scanner, device, true, gatt) ==
         Handled(Reaction(mid.scanner, match AssembleTag(gatt)
                                       case None => []
                                       case Some(t) => [BroadcastTagFound(t)]))
  {
    var cs := DeclaredAttributes(gatt);
    var k := |cs|;
    var d := OnServicesDiscovered(s, device, true, gatt);
    assert Reverse(cs) + [] == Reverse(cs);
    CompletionsPop(d.scanner, device, gatt, k - 1);
    assert Reverse(cs)[1..][..k - 1] == Reverse(cs)[1..];
  }

  /** A device without the tag service gets an empty stack and no read. */
  lemma MissingServiceReadsNothing(s: Scanner, device: Address, gatt: Gatt)
    requires device in s.builders && s.builders[device].readQueue == []
    requires FindService(gatt, TagService).None?
    ensures OnServicesDiscovered(s, device, true, gatt).effects == []
    ensures OnServicesDiscovered(s, device, true, gatt).scanner == s
  {
  }
}

=== FILE: sequences.dfy ===
/** Facts about sequences that the handlers' models share. */
module Sequences {

  /** `s` back to front. */
  function Reverse<T>(s: seq<T>): (r: seq<T>)
    ensures |r| == |s|
    ensures forall i :: 0 <= i < |s| ==> r[i] == s[|s| - 1 - i]
  {
    if |s| == 0 then [] else Reverse(s[1..]) + [s[0]]
  }

  /** Sharing out one more element keeps two parts' multisets summing to
      the whole, provided the element goes to exactly one of the parts. */
  lemma SplitHead<T>(x: T, rest: seq<T>, m: seq<T>, u: seq<T>, head: seq<T>, tail: seq<T>)
    requires multiset(m) + multiset(u) == multiset(rest)
    requires (head == [x] && tail == []) || (head == [] && tail == [x])
    ensures multiset(head + m) + multiset(tail + u) == multiset([x] + rest)
  {
  }
}

=== FILE: storage.dfy ===
/** The file-backed tag registry: an in-memory map from identifier to tag,
    loaded line by line from a private file when the service starts, and
    extended one record at a time by `saveTag`. */
module FileStorage {
  import opened JavaLang
  import opened JavaText
  import opened TagModel

  /** The registry's map; `HashMap` admits a null key, so keys are nullable. */
  type TagMap = map<JString, Tag>

  /** The service's state: its map and the file's contents (`None` while the
      file has never been created). */
  datatype Storage = Storage(tags: TagMap, file: Option<string>)

  datatype StorageError = TagExists(id: JString)

  /** Every tag is stored under its own identifier. */
  predicate WellKeyed(m: TagMap) {
    forall k :: k in m ==> m[k].id == k
  }

  /** One loaded line: accepted exactly when it splits into three fields,
      which become identifier, name and flag. */
  function ParseLine(line: string): (r: Option<Tag>)
    ensures ',' !in line ==> r.None?
    ensures r.Some? <==> |Split(line)| == 3
    ensures r.Some? ==> r.value.id == Some(Split(line)[0]) && r.value.name == Some(Split(line)[1])
    ensures r.Some? ==> r.value.interactive == ParseBoolean(Split(line)[2])
    ensures r.Some? ==> r.value.id.Some? && r.value.name.Some?
    ensures r.Some? ==> ',' !in r.value.id.value && ',' !in r.value.name.value
  {
    var fs := Split(line);
    if |fs| != 3 then None else Some(Tag(Some(fs[0]), Some(fs[1]), ParseBoolean(fs[2])))
  }

  /** A line that does not end in a comma is accepted exactly when it holds
      two commas; a line that does is accepted exactly when three fields are
      left once the empty ones at its end are dropped. */
  lemma LineAcceptedByCommas(line: string)
    ensures |line| > 0 && line[|line| - 1] != ',' ==> (ParseLine(line).Some? <==> Count(line, ',') == 2)
    ensures |line| > 0 && line[|line| - 1] == ',' ==> (ParseLine(line).Some? <==> |TrimTrailingEmpty(Fields(line))| == 3)
  {
    if |line| > 0 && line[|line| - 1] != ',' {
      SplitCount(line);
    } else if |line| > 0 {
      assert ',' in line by { assert line[|line| - 1] in line; }
    }
  }

  /** An accepted line not ending in a comma is exactly its tag's identifier,
      name and flag field put back together with commas. */
  lemma AcceptedLineIsItsFields(line: string)
    requires |line| > 0 && line[|line| - 1] != ','
    requires ParseLine(line).Some?
    ensures var t := ParseLine(line).value;
      line == t.id.value + "," + t.name.value + "," + Split(line)[2]
  {
    SplitCount(line);
    JoinFields(line);
    var fs := Fields(line);
    assert Join(fs) == fs[0] + "," + Join(fs[1..]);
    assert Join(fs[1..]) == fs[1] + "," + Join(fs[2..]);
    assert Join(fs[2..]) == fs[2];
  }

  /** The map built by the loading loop: lines in file order, rejected lines
      skipped, a later line overwriting an earlier one with the same identifier. */
  function Load(lines: seq<string>): (m: TagMap)
    ensures WellKeyed(m)
    ensures forall k :: k in m ==> k.Some?
  {
    if |lines| == 0 then map[]
    else
      var m := Load(lines[..|lines| - 1]);
      match ParseLine(lines[|lines| - 1])
      case None => m
      case Some(t) => m[t.id := t]
  }

  /** What `onCreate` leaves in the map: nothing when the file does not exist,
      otherwise the tags of its lines. */
  function OnCreate(file: Option<string>): (m: TagMap)
    ensures WellKeyed(m)
    ensures file.None? ==> m == map[]
  {
    match file
    case None => map[]
    case Some(text) => Load(ReadLines(text))
  }

  /** Every loaded tag comes from some line of the file. */
  lemma {:induction false} LoadedTagsComeFromLines(lines: seq<string>, k: JString)
    requires k in Load(lines)
    ensures exists i :: 0 <= i < |lines| && ParseLine(lines[i]) == Some(Load(lines)[k])
    decreases |lines|
  {
    var n := |lines|;
    var prefix := lines[..n - 1];
    var line := lines[n - 1];
    assert lines == prefix + [line];
    LoadSnoc(prefix, line);
    var p := ParseLine(line);
    if p.Some? && p.value.id == k {
      assert ParseLine(lines[n - 1]) == Some(Load(lines)[k]);
    } else {
      assert Load(lines)[k] == Load(prefix)[k];
      LoadedTagsComeFromLines(prefix, k);
      var i :| 0 <= i < |prefix| && ParseLine(prefix[i]) == Some(Load(prefix)[k]);
      assert lines[i] == prefix[i];
    }
  }

  /** Loading one more line: the map so far, updated by that line if it is accepted. */
  lemma LoadSnoc(lines: seq<string>, line: string)
    ensures Load(lines + [line]) == match ParseLine(line)
      case None => Load(lines)
      case Some(t) => Load(lines)[t.id := t]
  {
    assert (lines + [line])[..|lines|] == lines;
  }

  /** An accepted line whose identifier no later line repeats is what the
      map holds for that identifier. */
  lemma {:induction false} LoadLastLineWins(lines: seq<string>, i: nat, t: Tag)
    requires i < |lines| && ParseLine(lines[i]) == Some(t)
    requires forall j :: i < j < |lines| ==> LineKey(lines[j]) != Some(t.id)
    ensures t.id in Load(lines) && Load(lines)[t.id] == t
    decreases |lines|
  {
    var n := |lines|;
    var prefix := lines[..n - 1];
    assert lines == prefix + [lines[n - 1]];
    LoadSnoc(prefix, lines[n - 1]);
    if i < n - 1 {
      assert prefix[i] == lines[i];
      forall j | i < j < |prefix|
        ensures LineKey(prefix[j]) != Some(t.id)
      {
        assert prefix[j] == lines[j];
      }
      LoadLastLineWins(prefix, i, t);
      assert LineKey(lines[n - 1]) != Some(t.id);
    }
  }

  /** The identifier an accepted line is stored under. */
  function LineKey(line: string): Option<JString> {
    match ParseLine(line)
    case None => None
    case Some(t) => Some(t.id)
  }

  /** `getTag`: the stored tag, or null. */
  function GetTag(m: TagMap, id: JString): (r: Option<Tag>)
    ensures r.Some? <==> id in m
    ensures r.Some? ==> r.value == m[id]
  {
    if id in m then Some(m[id]) else None
  }

  /** `getTagList`: the map's values, listed in the (unspecified) order of a
      walk over its keys, which is returned alongside. */
  method GetTagList(m: TagMap) returns (list: seq<Tag>, order: seq<JString>)
    ensures |list| == |order| == |m|
    ensures forall i :: 0 <= i < |order| ==> order[i] in m && list[i] == m[order[i]]
    ensures forall i, j :: 0 <= i < j < |order| ==> order[i] != order[j]
    ensures forall k :: k in m ==> k in order
  {
    var rest := m.Keys;
    list := [];
    order := [];
    while rest != {}
      invariant rest <= m.Keys
      invariant |list| == |order|
      invariant |order| + |rest| == |m|
      invariant forall i :: 0 <= i < |order| ==> order[i] in m && list[i] == m[order[i]]
      invariant forall i :: 0 <= i < |order| ==> order[i] !in rest
      invariant forall i, j :: 0 <= i < j < |order| ==> order[i] != order[j]
      invariant forall k :: k in m ==> k in rest || k in order
      decreases rest
    {
      var k :| k in rest;
      list := list + [m[k]];
      order := order + [k];
      rest := rest - {k};
    }
  }

  /** The record `saveTag` appends: identifier, name and flag joined by
      commas, with no line terminator after it. */
  function Record(t: Tag): (r: string)
    ensures NoLineBreak(Render(t.id)) && NoLineBreak(Render(t.name)) ==> NoLineBreak(r)
    ensures |r| > 0 && r[|r| - 1] == 'e'
  {
    Render(t.id) + "," + Render(t.name) + "," + BoolToString(t.interactive)
  }

  /** The file after one more record is appended to it (created if absent). */
  function Append(file: Option<string>, t: Tag): Option<string> {
    match file
    case None => Some(Record(t))
    case Some(text) => Some(text + Record(t))
  }

  /** `saveTag`: refuses an identifier that is already stored and leaves the
      storage as it was; otherwise stores the tag under its identifier,
      appends its record to the file and returns the same tag. */
  function SaveTag(s: Storage, t: Tag): (r: (Storage, Result<Tag, StorageError>))
    ensures r.1.Failure? <==> t.id in s.tags
    ensures r.1.Failure? ==> r.0 == s && r.1.error == TagExists(t.id)
    ensures r.1.Success? ==> r.1.value == t
    ensures r.1.Success? ==> r.0.tags.Keys == s.tags.Keys + {t.id} && r.0.tags[t.id] == t
    ensures r.1.Success? ==> forall k :: k in s.tags ==> r.0.tags[k] == s.tags[k]
    ensures r.1.Success? ==> r.0.file == Some((if s.file.Some? then s.file.value else "") + Record(t))
    ensures WellKeyed(s.tags) ==> WellKeyed(r.0.tags)
  {
    if t.id in s.tags then (s, Failure(TagExists(t.id)))
    else
      assert "" + Record(t) == Record(t);
      (Storage(s.tags[t.id := t], Append(s.file, t)), Success(t))
  }

  /** `createTag`: a new tag from its three parts, saved. */
  function CreateTag(s: Storage, id: JString, name: JString, interactive: bool): (r: (Storage, Result<Tag, StorageError>))
    ensures r == SaveTag(s, Tag(id, name, interactive))
    ensures r.1.Failure? <==> id in s.tags
    ensures r.1.Failure? ==> r.0 == s
    ensures r.1.Success? ==> r.1.value == Tag(id, name, interactive) && id in r.0.tags && r.0.tags[id] == r.1.value
    ensures r.1.Success? ==> r.0.tags.Keys == s.tags.Keys + {id} && forall k :: k in s.tags ==> r.0.tags[k] == s.tags[k]
  {
    SaveTag(s, MakeTag(id, name, interactive))
  }

  /** `persistTag`: the given tag, saved. */
  function PersistTag(s: Storage, t: Tag): (r: (Storage, Result<Tag, StorageError>))
    ensures r == SaveTag(s, t)
    ensures r.1.Failure? <==> t.id in s.tags
    ensures r.1.Failure? ==> r.0 == s
    ensures r.1.Success? ==> r.1.value == t && t.id in r.0.tags && r.0.tags[t.id] == t
    ensures r.1.Success? ==> r.0.tags.Keys == s.tags.Keys + {t.id} && forall k :: k in s.tags ==> r.0.tags[k] == s.tags[k]
  {
    SaveTag(s, t)
  }

  /** A tag whose identifier and name print without commas or line breaks. */
  predicate Printable(t: Tag) {
    && ',' !in Render(t.id) && ',' !in Render(t.name)
    && NoLineBreak(Render(t.id)) && NoLineBreak(Render(t.name))
  }

  /** A record read back is the tag that was written, provided identifier
      and name are non-null and free of commas and line breaks. */
  lemma RecordRoundTrip(t: Tag)
    requires t.id.Some? && t.name.Some? && Printable(t)
    ensures ReadLines(Record(t)) == [Record(t)]
    ensures ParseLine(Record(t)) == Some(t)
    ensures OnCreate(Some(Record(t))) == map[t.id := t]
  {
    ReadLinesSingle(Record(t));
    SplitThree(t.id.value, t.name.value, BoolToString(t.interactive));
    ParseBooleanOfBoolToString(t.interactive);
    assert Load([Record(t)][..0]) == map[];
  }

  /** A null identifier is written as "null" and comes back as that string. */
  lemma NullIdReadsBackAsString(t: Tag)
    requires t.id.None? && t.name.Some? && Printable(t)
    ensures ParseLine(Record(t)) == Some(Tag(Some("null"), t.name, t.interactive))
  {
    SplitThree("null", t.name.value, BoolToString(t.interactive));
    ParseBooleanOfBoolToString(t.interactive);
  }

  /** The file contents after the records of `ts` are appended in order. */
  function Records(ts: seq<Tag>): string {
    if |ts| == 0 then "" else Records(ts[..|ts| - 1]) + Record(ts[|ts| - 1])
  }

  lemma NoLineBreakAppend(a: string, b: string)
    requires NoLineBreak(a) && NoLineBreak(b)
    ensures NoLineBreak(a + b)
  {
    forall j | 0 <= j < |a + b|
      ensures !IsLineBreak((a + b)[j])
    {
      if j >= |a| {
        assert (a + b)[j] == b[j - |a|];
      }
    }
  }

  lemma RecordCommas(t: Tag)
    requires Printable(t)
    ensures Count(Record(t), ',') == 2
  {
    var a, b, c := Render(t.id), Render(t.name), BoolToString(t.interactive);
    CountZero(a, ',');
    CountZero(b, ',');
    CountZero(c, ',');
    CountAppend(a, ",", ',');
    CountAppend(a + ",", b, ',');
    CountAppend(a + "," + b, ",", ',');
    CountAppend(a + "," + b + ",", c, ',');
  }

  /** Appended records never contain a line break, hold two commas each and
      end in the last flag's final letter. */
  lemma {:induction false} RecordsShape(ts: seq<Tag>)
    requires forall i :: 0 <= i < |ts| ==> Printable(ts[i])
    ensures NoLineBreak(Records(ts))
    ensures Count(Records(ts), ',') == 2 * |ts|
    ensures |ts| > 0 ==> |Records(ts)| > 0 && Records(ts)[|Records(ts)| - 1] == 'e'
    decreases |ts|
  {
    if |ts| > 0 {
      var last := ts[|ts| - 1];
      RecordsShape(ts[..|ts| - 1]);
      NoLineBreakAppend(Records(ts[..|ts| - 1]), Record(last));
      CountAppend(Records(ts[..|ts| - 1]), Record(last), ',');
      RecordCommas(last);
    }
  }

  /** Since no line terminator is ever written, two or more saved records
      form a single line of at least five fields, and loading that file
      yields an empty registry. */
  lemma ConcatenatedRecordsLoadNothing(ts: seq<Tag>)
    requires |ts| >= 2
    requires forall i :: 0 <= i < |ts| ==> Printable(ts[i])
    ensures ReadLines(Records(ts)) == [Records(ts)]
    ensures |Split(Records(ts))| == 2 * |ts| + 1
    ensures OnCreate(Some(Records(ts))) == map[]
  {
    var text := Records(ts);
    RecordsShape(ts);
    ReadLinesSingle(text);
    SplitCount(text);
    assert Load([text][..0]) == map[];
  }

  /** The storage after saving each tag of `ts` in turn. */
  function SaveAll(s: Storage, ts: seq<Tag>): Storage {
    if |ts| == 0 then s else SaveTag(SaveAll(s, ts[..|ts| - 1]), ts[|ts| - 1]).0
  }

  /** The identifiers of `ts`. */
  function Ids(ts: seq<Tag>): (r: set<JString>)
    ensures forall i :: 0 <= i < |ts| ==> ts[i].id in r
    ensures forall x :: x in r ==> exists i :: 0 <= i < |ts| && ts[i].id == x
  {
    if |ts| == 0 then {} else Ids(ts[..|ts| - 1]) + {ts[|ts| - 1].id}
  }

  predicate DistinctIds(ts: seq<Tag>) {
    forall i, j :: 0 <= i < j < |ts| ==> ts[i].id != ts[j].id
  }

  const Fresh: Storage := Storage(map[], None)

  /** Dropping the last tag keeps identifiers distinct, and the last
      identifier is not among the others. */
  lemma DistinctIdsPrefix(ts: seq<Tag>)
    requires |ts| > 0 && DistinctIds(ts)
    ensures DistinctIds(ts[..|ts| - 1])
    ensures ts[|ts| - 1].id !in Ids(ts[..|ts| - 1])
  {
    var prefix := ts[..|ts| - 1];
    forall i, j | 0 <= i < j < |prefix| ensures prefix[i].id != prefix[j].id {
      assert prefix[i] == ts[i] && prefix[j] == ts[j];
    }
    forall i | 0 <= i < |prefix| ensures prefix[i].id != ts[|ts| - 1].id {
      assert prefix[i] == ts[i];
    }
  }

  /** Saving tags of distinct identifiers into a fresh registry stores every
      one of them, each under its own identifier. */
  lemma {:induction false} SaveAllFromFresh(ts: seq<Tag>)
    requires DistinctIds(ts)
    ensures SaveAll(Fresh, ts).tags.Keys == Ids(ts)
    ensures forall i :: 0 <= i < |ts| ==> SaveAll(Fresh, ts).tags[ts[i].id] == ts[i]
    decreases |ts|
  {
    if |ts| > 0 {
      var n := |ts|;
      var prefix := ts[..n - 1];
      var last := ts[n - 1];
      DistinctIdsPrefix(ts);
      SaveAllFromFresh(prefix);
      var before := SaveAll(Fresh, prefix);
      var r := SaveTag(before, last);
      assert SaveAll(Fresh, ts) == r.0;
      assert r.1.Success?;
      assert Ids(ts) == Ids(prefix) + {last.id};
      forall i | 0 <= i < n
        ensures r.0.tags[ts[i].id] == ts[i]
      {
        if i < n - 1 {
          assert ts[i] == prefix[i];
        }
      }
    }
  }

  /** ...and leaves their records, back to back, in the file. */
  lemma {:induction false} SaveAllFileFromFresh(ts: seq<Tag>)
    requires DistinctIds(ts)
    ensures SaveAll(Fresh, ts).file == if |ts| == 0 then None else Some(Records(ts))
    decreases |ts|
  {
    if |ts| > 0 {
      var n := |ts|;
      var prefix := ts[..n - 1];
      var last := ts[n - 1];
      DistinctIdsPrefix(ts);
      SaveAllFromFresh(prefix);
      SaveAllFileFromFresh(prefix);
      var before := SaveAll(Fresh, prefix);
      assert last.id !in before.tags;
      assert SaveAll(Fresh, ts).file == Append(before.file, last);
      assert Records(ts) == Records(prefix) + Record(last);
      if n == 1 {
        assert prefix == [];
        assert before == Fresh;
        assert Records(prefix) + Record(last) == Record(last);
      }
    }
  }

  /** The first save survives a restart of the service... */
  lemma ReloadAfterOneSave(t: Tag)
    requires t.id.Some? && t.name.Some? && Printable(t)
    ensures SaveTag(Fresh, t).1 == Success(t)
    ensures OnCreate(SaveTag(Fresh, t).0.file) == SaveTag(Fresh, t).0.tags
  {
    RecordRoundTrip(t);
  }

  /** ...but once two or more tags have been saved, a restart of the
      service loads none of them. */
  lemma ReloadAfterSeveralSavesLosesAll(ts: seq<Tag>)
    requires |ts| >= 2 && DistinctIds(ts)
    requires forall i :: 0 <= i < |ts| ==> Printable(ts[i])
    ensures |SaveAll(Fresh, ts).tags| == |ts|
    ensures OnCreate(SaveAll(Fresh, ts).file) == map[]
  {
    SaveAllFromFresh(ts);
    SaveAllFileFromFresh(ts);
    ConcatenatedRecordsLoadNothing(ts);
    DistinctIdsCardinality(ts);
  }

  lemma {:induction false} DistinctIdsCardinality(ts: seq<Tag>)
    requires DistinctIds(ts)
    ensures |Ids(ts)| == |ts|
    decreases |ts|
  {
    if |ts| > 0 {
      var n := |ts|;
      var prefix := ts[..n - 1];
      DistinctIdsPrefix(ts);
      DistinctIdsCardinality(prefix);
    }
  }
}

=== FILE: tag.dfy ===
/** The tag value: an identifier, a display name and an "interactive" flag.
    Two tags are the same tag when their identifiers agree; the name and the
    flag take no part in equality or hashing. */
module TagModel {
  import opened JavaLang

  datatype Tag = Tag(id: JString, name: JString, interactive: bool)

  /** The no-argument constructor. */
  function NewTag(): (t: Tag)
    ensures t.id.None? && t.name.None? && !t.interactive
  {
    Tag(None, None, false)
  }

  /** The three-argument constructor keeps exactly what it is given. */
  function MakeTag(id: JString, name: JString, interactive: bool): (t: Tag)
    ensures t.id == id && t.name == name && t.interactive == interactive
  {
    Tag(id, name, interactive)
  }

  function SetId(t: Tag, id: JString): (r: Tag)
    ensures r.id == id && r.name == t.name && r.interactive == t.interactive
  {
    t.(id := id)
  }

  function SetName(t: Tag, name: JString): (r: Tag)
    ensures r.name == name && r.id == t.id && r.interactive == t.interactive
  {
    t.(name := name)
  }

  function SetInteractive(t: Tag, interactive: bool): (r: Tag)
    ensures r.interactive == interactive && r.id == t.id && r.name == t.name
  {
    t.(interactive := interactive)
  }

  /** What `Tag.equals` may be handed: null, a tag, or an object of another class. */
  datatype JavaObject = Null | TagObject(tag: Tag) | OtherObject

  /** `Tag.equals`: a non-null tag whose identifier is the same string, or
      null on both sides. */
  function Equals(t: Tag, o: JavaObject): (r: bool)
    ensures o == TagObject(t) ==> r
    ensures r ==> o.TagObject?
  {
    match o
    case TagObject(other) => t.id == other.id
    case _ => false
  }

  /** `Tag.hashCode`: the identifier's string hash, 0 for a null identifier. */
  function HashCode(t: Tag): (h: int)
    ensures IntMin <= h <= IntMax
    ensures t.id.None? ==> h == 0
  {
    match t.id
    case None => 0
    case Some(s) => StringHashCode(s)
  }

  /** `Tag.toString`: the name, then the identifier in parentheses. */
  function ToString(t: Tag): (r: string)
    ensures |r| == |Render(t.name)| + |Render(t.id)| + 3
    ensures r[..|Render(t.name)|] == Render(t.name)
    ensures r[|Render(t.name)|..|Render(t.name)| + 2] == " ("
    ensures r[|r| - 1 - |Render(t.id)|..|r| - 1] == Render(t.id)
    ensures r[|r| - 1] == ')'
  {
    Render(t.name) + " (" + Render(t.id) + ")"
  }

  /** Equality holds exactly between tags of equal identifier, whatever their
      names and flags; null and objects of other classes are never equal to a tag. */
  lemma EqualsCharacterization(t: Tag, o: JavaObject)
    ensures Equals(t, o) <==> o.TagObject? && o.tag.id == t.id
  {
  }

  /** `equals` is an equivalence on tags. */
  lemma EqualsIsEquivalence(a: Tag, b: Tag, c: Tag)
    ensures Equals(a, TagObject(a))
    ensures Equals(a, TagObject(b)) ==> Equals(b, TagObject(a))
    ensures Equals(a, TagObject(b)) && Equals(b, TagObject(c)) ==> Equals(a, TagObject(c))
  {
  }

  /** Equal tags have equal hash codes. */
  lemma EqualTagsHashEqually(a: Tag, b: Tag)
    requires Equals(a, TagObject(b))
    ensures HashCode(a) == HashCode(b)
  {
  }

  /** Renaming a tag or changing its flag never changes what it equals, on
      either side of `equals`. */
  lemma SettersKeepEquality(t: Tag, o: JavaObject, name: JString, interactive: bool)
    ensures Equals(SetName(t, name), o) == Equals(t, o)
    ensures Equals(SetInteractive(t, interactive), o) == Equals(t, o)
    ensures o.TagObject? ==>
      Equals(o.tag, TagObject(SetName(t, name))) == Equals(o.tag, TagObject(t)) &&
      Equals(o.tag, TagObject(SetInteractive(t, interactive))) == Equals(o.tag, TagObject(t))
  {
  }
}
